=== FILE: README.md ===
# tello-webrtc-fpv: a Dafny model of the video, telemetry and control core

tello-webrtc-fpv is a Go gateway between a DJI Tello drone, or a mock drone that replays
a recorded H.264 file, and browser viewers connected over WebRTC. This project models
the parts of that gateway that have real logic, each as pure functions over immutable
data:

- **Scanning** (`scan.dfy`, module `Scan`). `ScanFrames` is the `bufio.Scanner` split
  function of mock.go. It cuts an Annex B byte stream just before each start code
  `00 00 00 01` found at index 3 or later. The model also covers the scanner that
  drives it: `Tokenize` for a complete input, and `Drain`/`ScanChunks` for input that
  arrives in reads of any size.
- **Frame reassembly** (`reassembly.dfy`, `tello_video.dfy`, `mock_video.dfy`). Two
  loops share one rule, modelled once as `Reassembly.Push`: the `startVideo2` loop of
  mock.go and the `VideoFrameEvent` handler of tello.go. Incoming pieces are appended
  to a buffer. A piece whose NAL unit type (the low five bits of its fifth byte) is 1
  (non-IDR slice) or 7 (sequence parameter set) hands the buffer on as a frame and
  restarts it. The two loops differ only in the test on the piece; `Variant` selects
  which test applies.
- **Telemetry de-duplication** (`flight_data.dfy`). The `FlightDataEvent` handler of
  tello.go reduces each driver record to height and battery level. It passes a sample
  on only when it differs from the last sample passed on.
- **Control messages** (`control.dfy`). The data-channel `OnMessage` handler of main.go
  reads a sign byte followed by a keyword. It makes at most one call on the `Drone`
  interface, or logs the message as unknown.
- **Broadcast** (`broadcast.dfy`). This is the slow-reader broadcast of broadcast.go:
  - `Listen` appends a channel and returns a remover.
  - `forward` offers a payload to every listed channel and skips any channel that is
    full.
  - `Forward` applies `forward` to every payload of an input channel.

  Channels are modelled by identity (`ChanId`), with a capacity and a queue of waiting
  payloads. The mutex serialises `Listen`, the remover and `forward`, so each of them is
  one step on an immutable `Registry`; a reader's receive is a step of its own. The event model (`Event`, `Apply`, `Run`) interleaves
  listening, removal, publishing and a reader taking payloads.

Go's `byte` is the newtype `Seqs.byte` (`0..255`). Byte arithmetic that wraps in Go is
written out explicitly:
- the flip type `b[0] - '0'` is computed modulo 256;
- `b[4] & 0x1F` is the remainder modulo 32.

The shared helpers are `Wrappers.Option` and the sequence lemmas of `Seqs` (`common.dfy`).

Some behaviours of the code that the model states plainly:
- The buffer left at end of input is never written to the track: the mock loop ends
  when the scanner stops (`Reassembly.ReassembleHoldsBackTail`).
- `"+forwa"` gives `Forward(40)` because the factor is ±2 and the speed is 20 times
  the factor (`Control.ForwardExample`). Likewise `"-right"` gives `Right(-40)`.
- The flip type is `b[0] - '0'` modulo 256, read from the first byte of the message,
  the byte that otherwise holds the sign. So `"3flip"` flips with type 3.
- The connection handler never calls the remover that `Listen` returns (main.go:148).
  The remover is modelled anyway, because broadcast.go defines it.

The remover at broadcast.go:19-30 is modelled twice (see "## Findings"): as written
(`Broadcast.RemoveAsWritten`) and corrected (`Broadcast.Remove`). The corrected
remover starts from an empty slice, so it also has no panic on an empty list. The event model
`Apply`/`Run` uses the corrected remover. `ApplyAsWritten`/`RunAsWritten` is the same
event model with the remover as written, where a removal from an empty list panics and
ends the program. `Broadcast.RunAgrees` shows that, until such a panic, both event
models give the same channels and history and list every channel equally often. So
every delivery property proved for the corrected model also holds for the code as
written (`DeliveryIsInOrderAsWritten`, `NothingAfterUnsubscribeAsWritten`).

## Model

| member | source | states |
|---|---|---|
| H264.StartCodeAtIsSlice | tello.go:59-61 | The elementwise start-code test at index k holds exactly when the four bytes from k are `00 00 00 01`. |
| TelloVideo.IsNalUnitStartIff | tello.go:59-61 | isNalUnitStart holds exactly when the chunk has at least four bytes and they are the start code. |
| H264.NalUnitTypeIsMask | tello.go:66 | On a byte, masking with `0b11111` gives the same unit type as the remainder modulo 32. |
| TelloVideo.SendPreviousBytesIff | tello.go:62-67 | sendPreviousBytes holds exactly when byte 4 exists and `b[4] & 0b11111` is 1 or 7, i.e. exactly when it opens a frame. |
| Scan.ScanLoop | mock.go:148-158 | The zero-counting loop, entered at index i with the true zero-run count, returns the first start code at or after max(3, i-3), or none exists from there on. |
| Scan.ScanFrames | mock.go:147-164 | A token is always the first `advance` bytes of the buffer and is non-empty. If a start code exists from index 3 on, the cut is exactly the first one. Otherwise a token is produced exactly at end of input with a non-empty buffer, and it is the whole buffer. |
| Scan.FirstStartCodeUnique | mock.go:149-154 | The first start code from index 3 is unique, so the cut is determined by the data. |
| Scan.ZeroRunThree | mock.go:150-156 | The zeros counter is at least 3 exactly when the three bytes before i (all at index 3 or later) are zero. |
| Scan.CutPrecedesStartCode | mock.go:152-154 | A cut made before end of input is at index 3 or later and is followed in the buffer by the four start-code bytes. |
| Scan.CutIsStable | mock.go:147-164 | Once a cut is found before end of input, appending bytes or reaching end of input does not move it. |
| Scan.CutNeedsOnlyPrefix | mock.go:147-164 | A cut whose start code lies inside a prefix is already found in that prefix alone. |
| Scan.ExtraZerosStayBehind | mock.go:149-154 | With more than three zeros before a 0x01, the cut is three bytes before the 0x01, and the extra zeros end the preceding token. |
| Scan.TokenizeRoundTrip | mock.go:147-164 | The tokens of a complete input concatenate back to the input. |
| Scan.TokenHasNoInnerStartCode | mock.go:149-154 | A token contains no start code at index 3 or later. |
| Scan.TokenKeepsLeadingStartCode | mock.go:149-154 | A buffer that opens with a start code yields a token that opens with it. |
| Scan.TokensOpenWithStartCode | mock.go:147-164 | If the input opens with a start code, every token does. |
| Scan.TokenizeShape | mock.go:147-164 | Every token is non-empty and has no inner start code, and every token after the first opens with the start code. |
| Scan.Tokenize | mock.go:112-118 | The scanner over a complete input yields no token exactly when the input is empty, and every token is non-empty. |
| Scan.ScanChunks | mock.go:112-118 | The scanner over input arriving in reads loses and duplicates no byte: its tokens concatenate to the buffered bytes followed by all the reads. |
| Scan.Drain | mock.go:118 | Splitting before end of input: the drained tokens followed by the bytes kept buffered give back the buffer, and no start code from index 3 on is left in what is kept. |
| Scan.TokenizeAfterCut | mock.go:147-164 | A cut found before end of input is also the first token of the whole input, whatever follows. |
| Scan.DrainThenTokenize | mock.go:118 | The tokens drained early, followed by the tokens of what was kept plus all later input, are exactly the tokens of the whole input. |
| Scan.ChunkingDoesNotMatter | mock.go:111-118 | However the reader splits the stream into reads, the scanner yields the tokens of the concatenated input. |
| Reassembly.Push | mock.go:118-141 | One loop step conserves bytes: the emitted frame followed by the new buffer is the old buffer followed by the piece. A frame is emitted exactly when the buffer is non-empty and the piece triggers. An emitted frame is non-empty and the buffer restarts with the piece. Pieces shorter than 5 bytes never trigger. |
| Reassembly.Reassemble | mock.go:115-141 | The loop emits at most one frame per piece, and every emitted frame is non-empty. |
| Reassembly.ReassembleConserves | mock.go:118-141 | The emitted frames followed by the buffer are all pieces concatenated in arrival order: nothing is lost, duplicated or reordered. |
| Reassembly.ReassembleExtends | tello.go:69-77 | Frames once handed on are never changed: later pieces only append frames. |
| Reassembly.ReassembleHoldsBackTail | mock.go:141-142 | After a non-empty last piece the buffer is non-empty, so the frames cover a strict prefix of the input (the tail is never flushed). |
| Reassembly.OpenStep | tello.go:71-73 | A step whose trigger implies a start code keeps every frame after the first, and the buffer, opening with a start code and a type 1 or 7 header. |
| Reassembly.FramesOpenWithHeader | tello.go:69-77 | With the drone's rule, or with start-code-aligned pieces, every frame after the first opens with a start code and a type 1 or 7 NAL header. |
| Reassembly.VariantsAgree | tello.go:71 | On start-code-aligned pieces the mock's rule and the drone handler's rule give the same frames and buffer. |
| MockVideo.FramesOf | mock.go:111-143 | The frames the mock loop writes for a stream are all non-empty, and a non-empty stream always leaves bytes in the buffer. |
| MockVideo.StreamConserved | mock.go:111-143 | The frames of a recorded stream followed by the final buffer give back the stream. |
| MockVideo.FramesIgnoreChunking | mock.go:111-118 | The frames written to the track do not depend on how the file reads are split. |
| MockVideo.FramesOpenWithStartCode | mock.go:128-137 | Every frame after the first begins with a start code and a type 1 or 7 header. |
| MockVideo.MockAgreesWithTello | mock.go:118-141 | On scanner tokens the drone handler's rule gives the same frames as the mock loop. |
| MockVideo.UnframedStreamIsHeldBack | mock.go:159-162 | A non-empty stream with no start code from index 3 on becomes one token that stays buffered: no frame is written. |
| MockVideo.TwoUnitTokens | mock.go:147-164 | The stream `00 00 00 01 67 AA BB 00 00 00 01 41 CC DD` is cut into its two units. |
| MockVideo.TwoUnitExample | mock.go:128-137 | For that stream the first unit is written as a frame and the second, a non-IDR slice, stays buffered. |
| MockVideo.FrameThenSlice | mock.go:128-137 | A piece followed by a piece opening a non-IDR slice: the first is handed on whole and the second buffered. |
| FlightDedup.ProjectKeepsHeightAndBattery | tello.go:82-85 | Two driver records give equal samples exactly when their height and battery level agree. |
| FlightDedup.OnFlightData | tello.go:80-90 | A sample is sent exactly when it differs from the previous one. When sent, it becomes the previous one; otherwise the previous one is unchanged. |
| FlightDedup.Deduplicate | tello.go:79-90 | After any record sequence the handler's previous value is the last sample sent (the zero value before any), and at most one sample is sent per record. |
| FlightDedup.SentIffChanged | tello.go:86-89 | A new record is sent exactly when its sample differs from the last one sent; otherwise nothing is added. |
| FlightDedup.NoRepeats | tello.go:86-89 | No two consecutive sent samples are equal, and a zero sample is never sent first. |
| FlightDedup.SentIsSubsequence | tello.go:79-90 | The sent samples are an order-preserving subsequence of the received samples. |
| FlightDedup.DedupIsCollapse | tello.go:79-90 | The zero value followed by the sent samples equals the received samples, preceded by the zero value, with adjacent repeats collapsed. |
| FlightDedup.RepeatThenChange | tello.go:86-89 | Two equal records are sent once, and a changed third record is sent too. |
| Control.Decode | main.go:115-143 | A message is reported as unknown, with itself and its factor, exactly when its rest is not one of the eight keywords. A decoded call is the one whose keyword is the whole rest. |
| Control.MovementSpeeds | main.go:117-130 | Forward, right and up run at 40 and clockwise at 50, negated exactly when the first byte is '-'. |
| Control.PlainActionsIgnoreSign | main.go:131-136 | Hover, take-off and land do not depend on the first byte. |
| Control.FlipTypeFromFirstByte | main.go:137-140 | The flip type is the first byte minus '0' with 8-bit wrap-around, so a digit selects itself. |
| Control.EncodeDecode | main.go:122-143 | Every call with a message form is decoded back from that message. |
| Control.DecodeEncode | main.go:122-143 | Every call the handler makes has a message form with the same keyword, so the possible calls are exactly the encodable ones. |
| Control.ForwardExample | main.go:123-124 | `"+forwa"` calls Forward(40). |
| Control.RightExample | main.go:127-128 | `"-right"` calls Right(-40). |
| Control.FlipExample | main.go:137-139 | `"3flip"` calls Flip(3). |
| Control.UnknownExample | main.go:141-142 | `"+xyzzy"` is an unknown command. |
| Control.Actuations | main.go:115-143 | A sequence of messages causes at most one call per message. |
| Control.ActuationsAreStateless | main.go:115-143 | The handler keeps no state between messages: the calls for two batches are those of each batch in turn. |
| Broadcast.Listen | broadcast.go:15-18 | The channel is appended once at the end, earlier entries are unchanged, and its count goes up by one while the others stay the same. |
| Broadcast.Survivors | broadcast.go:24-29 | The entries other than the removed channel, in order: membership, per-channel counts and length are those of the input with every copy of the channel dropped. |
| Broadcast.RemoveAsWritten | broadcast.go:19-30 | The remover as written: the new list starts with len-1 nil slots and the survivors come after them. |
| Broadcast.Remove | broadcast.go:19-30 | The corrected remover: an order-preserving subsequence of the old list without the channel, with every other entry kept. |
| Broadcast.RemoveUndoesListen | broadcast.go:15-30 | With the corrected remover, listening to a new channel and then removing it restores the registry. |
| Broadcast.SurvivorsOfAbsent | broadcast.go:24-29 | Removing a channel that is not listed keeps the list. |
| Broadcast.RemoveAsWrittenLeavesNils | broadcast.go:22-29 | As written, listening then removing a channel leaves the old list behind as many nil slots as it has entries. |
| Broadcast.RemoveAsWrittenCounterexample | broadcast.go:23 | Listeners [1, 2] with 2 removed give [nil, 1] as written and [1] when corrected. |
| Broadcast.SurvivorsExample | broadcast.go:24-29 | The survivors of [1, 2] without 2 are [1]. |
| Broadcast.AcceptOffered | broadcast.go:43-46 | One more non-blocking send to a channel adds one payload while room is left and none after that. |
| Broadcast.Deliver | broadcast.go:42-47 | After the loop over the listeners, a channel listed k times holds its queue plus min(k, spare room) copies of the payload. Channels stay within capacity, and no channel is created. |
| Broadcast.Forward | broadcast.go:39-48 | forward leaves the listener list unchanged. An unlisted channel is untouched, and a channel listed once takes the payload exactly when it has room. |
| Broadcast.NilSlotsAreInert | broadcast.go:42-47 | Nil slots never receive, so the slots the as-written remover leaves do not change delivery. |
| Broadcast.CountNils | broadcast.go:23 | Nil slots do not count as listings of any channel. |
| Broadcast.ForwardAll | broadcast.go:33-37 | Forward keeps the listener list and the set of channels, and channels stay within capacity. |
| Broadcast.ForwardAllSkipsUnlisted | broadcast.go:33-48 | A channel that is not listed receives nothing however many payloads are forwarded. |
| Broadcast.ForwardAllFillsThenDrops | broadcast.go:43-46 | A channel listed once whose reader is idle receives the first payloads that fit in its room, in order, and every later one is dropped. |
| Broadcast.ApplyKeepsOrder | broadcast.go:39-48 | Every event except listening the observed channel a second time keeps the order invariant. The invariant: the channel is listed at most once, and what its reader took followed by what waits is a subsequence of everything published. |
| Broadcast.PublishKeepsOrder | broadcast.go:42-47 | Publishing keeps the order invariant: the payload is either appended to the channel's queue or dropped. |
| Broadcast.ReceiveKeepsOrder | main.go:149-151 | A reader taking the oldest waiting payload keeps the order invariant. |
| Broadcast.Apply | broadcast.go:15-48 | One step of listening, removal (with the corrected remover), forward or a reader's receive keeps every channel within capacity and creates or deletes no channel. |
| Broadcast.Run | broadcast.go:15-48 | Any interleaving of those steps keeps every channel within capacity and keeps the set of channels. |
| Broadcast.DeliveryIsInOrder | broadcast.go:33-48 | Along any run that listens the observed channel only while it is unlisted, its reader gets payloads in publish order, without duplicates. |
| Broadcast.ListenedPrefix | broadcast.go:15-18 | The condition on listening holds for every prefix of a run that meets it. |
| Broadcast.UnlistedStep | broadcast.go:42-47 | An event other than listening the channel again leaves an unlisted channel unlisted and adds nothing to it. |
| Broadcast.NothingAfterUnsubscribe | broadcast.go:19-30 | With the corrected remover: once a channel is unlisted and not listened again, nothing more reaches it, so what its reader took plus what waits never changes. |
| Broadcast.UnsubscribeUnlists | broadcast.go:19-30 | After the corrected remover runs, the channel is not listed, whatever the list held. |
| Broadcast.ApplyAsWritten | broadcast.go:19-30 | With the remover as written, a step fails exactly when it removes from an empty list (the makeslice panic); otherwise it keeps channels within capacity and keeps the set of channels. |
| Broadcast.RunAsWritten | broadcast.go:15-48 | A run with the remover as written that has not panicked keeps channels within capacity and keeps the set of channels. |
| Broadcast.RemoveAsWrittenCounts | broadcast.go:22-29 | The remover as written lists every channel exactly as often as the corrected remover. |
| Broadcast.DeliverByCounts | broadcast.go:42-47 | forward's effect depends only on how often each channel is listed. |
| Broadcast.ApplyAgrees | broadcast.go:15-48 | A step of the as-written program that does not panic keeps it alike to the corrected program: same channels, same history, same listing counts. |
| Broadcast.RunAgrees | broadcast.go:15-48 | Along any run, until the as-written program panics, its state is alike to the corrected program's. |
| Broadcast.PrefixSurvives | broadcast.go:23 | A run with the remover as written that has not panicked did not panic at any earlier point. |
| Broadcast.DeliveryIsInOrderAsWritten | broadcast.go:19-48 | With the remover as written, along a run that listens the observed channel only while that run has it unlisted, its reader gets payloads in publish order, without duplicates. |
| Broadcast.NothingAfterUnsubscribeAsWritten | broadcast.go:19-48 | With the remover as written, once a channel is unlisted and not listened again, nothing more reaches it. |
| Broadcast.UnsubscribeUnlistsAsWritten | broadcast.go:19-30 | The remover as written, on a non-empty list, does not panic and leaves the channel unlisted. |

## Findings

| source | as written | input that shows it | evidently intended | confidence | as-written member | corrected member |
|---|---|---|---|---|---|---|
| broadcast.go:23 | The remover allocates the new list with `make(..., len(b.listeners)-1)`. That is length len-1, so the survivors are appended after len-1 nil channels. The list never shrinks unless every entry is the removed channel, and on an empty list `make` panics on length -1. | Listeners [a, b], remove b: the list becomes [nil, a] instead of [a]. On a list of n entries, listening a new channel and removing it leaves n nil slots before the old list, so the length goes from n to 2n. | `make(..., 0, len(b.listeners))`: length 0 and room for every entry, so the list holds just the survivors and an empty list needs no special case. | not executed | Broadcast.RemoveAsWritten | Broadcast.Remove |

The nil slots are harmless to delivery, because a send to a nil channel never proceeds
and the `default` branch is taken (`Broadcast.NilSlotsAreInert`). On a list of n
entries a listen/remove cycle doubles the length to 2n (`RemoveAsWrittenLeavesNils`),
so the list grows without bound only while some other channel stays listed; from an
empty list the cycle gives the empty list back.

## Left out

- I/O and timing are not modelled:
  - reading the recorded file. The mock wraps it in `loop.New` (mock.go:37), which
    replays it forever, so `startVideo2` never reaches end of input. `FramesOf`, the
    final at-end token of `Tokenize` and `ReassembleHoldsBackTail` describe the loop on
    a finite reader;
  - `WriteSample` on the video track and the ticker that paces it (the mock loop's
    emitted frames are what it writes);
  - the drone driver's events;
  - sending on WebRTC data channels.
- Concurrency is modelled only as an interleaving of atomic steps. The broadcast
  mutex serialises `Listen`, the remover and `forward`, so each is one step. A
  listener's reader (main.go:149) takes payloads without the mutex; its `Receive`
  event is atomic by assumption and falls between whole `forward` steps.
- Broadcast.Deliver: a reader that receives while `forward`'s loop is still sending
  (between two sends to a channel listed twice) is not modelled. The count
  min(k, spare room) for a channel listed k times holds only when `forward` runs as
  one atomic step; in Go such a reader can get more copies. Properties that need the
  channel listed at most once are unaffected, since a single send commutes with the
  receive.
- Scan.ScanFrames: the error result is always nil and is left out.
- Scan.Tokenize: bufio.Scanner's maximum token size (`ErrTooLong`) and its buffer
  growth are not modelled. A token of any length is accepted.
- Reassembly.Push: the mock loop's reuse of the buffer's storage (`buf[:0]`) is not
  modelled. The model assumes the frame already written is not affected.
- Broadcast.Forward: a channel is modelled as a buffered queue with a capacity. An
  unbuffered channel with a reader waiting in `receive` is not modelled; it counts as
  capacity 0.
- Broadcast.ForwardAll: `ForwardFlightData` (broadcast.go:50-59) is left out. It
  serialises each sample with `json.Marshal` before `forward`, and that encoding is
  outside the model.
- The actuator calls' error results, and the `fmt.Println` of the flip result, are
  left out. The model stops at which call is made.
- The driver's flight-data record is modelled only by the two fields the handler
  reads. Its other fields are kept abstract.
- Construction and wiring are not modelled:
  - `NewMock`, `NewTello`, `run`, `socketHandler`, `handleICE` and `trackDebugger`;
  - in the connection's `OnOpen` loop (main.go:146-152), the `d.Send` of each payload.
    The loop's receive from its capacity-1 channel is the `Receive` event of the
    broadcast model.

  These only connect the modelled parts to the network and the driver.
- Broadcast.RemoveAsWritten: a removal from an empty list (a remover called after the
  list was emptied) makes the `make` at broadcast.go:23 panic on length -1.
  RemoveAsWritten therefore requires at least one entry; `ApplyAsWritten` models the
  panic as the end of the program.
- Control.Decode: an empty message makes the Go handler panic on `b[0]`. Decode
  therefore requires at least one byte; the panic itself is not modelled.

=== FILE: broadcast.dfy ===
/**
 * The slow-reader broadcast of broadcast.go: a list of listener channels, a remover
 * returned by Listen, and a forward that offers each payload to every listed channel
 * without blocking, skipping channels that are full. The mutex only serialises these
 * operations, so each is modelled as one atomic step on an immutable registry.
 */
module Broadcast {
  import opened Wrappers
  import opened Seqs

  type Payload = seq<byte>

  /** Identity of a channel value; Go compares channels by identity. */
  type ChanId = nat

  /** A listener slot: a channel, or None for a nil channel value. */
  type Slot = Option<ChanId>

  /** A buffered Go channel: its capacity and the payloads waiting in it, oldest first. */
  datatype Chan = Chan(capacity: nat, queue: seq<Payload>)

  /**
   * The listener list and every channel that exists. A listed id missing from `chans`
   * is never offered anything; in Go every listed channel exists, and the lemmas about
   * a channel require its id to be in `chans`.
   */
  datatype Registry = Registry(listeners: seq<Slot>, chans: map<ChanId, Chan>)

  /** No channel holds more than its capacity. */
  ghost predicate Bounded(chans: map<ChanId, Chan>)
  {
    forall id :: id in chans ==> |chans[id].queue| <= chans[id].capacity
  }

  /** Listen: the channel is added once, at the end, and earlier entries are unchanged. */
  function Listen(r: Registry, ch: Slot): (r': Registry)
    ensures |r'.listeners| == |r.listeners| + 1
    ensures r'.listeners[..|r.listeners|] == r.listeners && r'.listeners[|r.listeners|] == ch
    ensures forall x :: Count(r'.listeners, x) == Count(r.listeners, x) + (if x == ch then 1 else 0)
    ensures r'.chans == r.chans
  {
    forall x
      ensures Count(r.listeners + [ch], x) == Count(r.listeners, x) + (if x == ch then 1 else 0)
    {
      CountSnoc(r.listeners, ch, x);
    }
    Registry(r.listeners + [ch], r.chans)
  }

  /** The entries of `ls` different from `ch`, in their original order. */
  function Survivors(ls: seq<Slot>, ch: Slot): (s: seq<Slot>)
    ensures forall x :: x in s <==> x in ls && x != ch
    ensures forall x :: Count(s, x) == if x == ch then 0 else Count(ls, x)
    ensures IsSubsequence(s, ls)
    ensures |s| == |ls| - Count(ls, ch)
    decreases |ls|
  {
    if |ls| == 0 then []
    else
      var init := ls[..|ls| - 1];
      var last := ls[|ls| - 1];
      var s := Survivors(init, ch);
      assert ls == init + [last];
      SubsequenceExtend(s, init, last);
      forall x
        ensures Count(s + [last], x) == Count(s, x) + (if last == x then 1 else 0)
      {
        CountSnoc(s, last, x);
      }
      if last == ch then s else s + [last]
  }

  /** `n` nil slots. */
  function Nils(n: nat): seq<Slot>
  {
    Repeat(None, n)
  }

  /**
   * The remover as written: the new list is made with length len-1, so it starts with
   * len-1 nil slots, and the survivors are appended after them. It panics on an empty
   * list, so it needs at least one entry.
   */
  function RemoveAsWritten(r: Registry, ch: Slot): (r': Registry)
    requires |r.listeners| >= 1
    ensures |r'.listeners| == (|r.listeners| - 1) + (|r.listeners| - Count(r.listeners, ch))
    ensures forall i :: 0 <= i < |r.listeners| - 1 ==> r'.listeners[i].None?
    ensures r'.listeners[|r.listeners| - 1..] == Survivors(r.listeners, ch)
    ensures r'.chans == r.chans
  {
    var n := |r.listeners|;
    var ls := Nils(n - 1) + Survivors(r.listeners, ch);
    forall i | 0 <= i < n - 1
      ensures ls[i].None?
    {
      RepeatAt<Slot>(None, n - 1, i);
    }
    Registry(ls, r.chans)
  }

  /**
   * The remover as evidently intended, building the new list from an empty slice
   * (`make(..., 0, len(b.listeners))`): every entry equal to `ch` is dropped (removal is
   * by value, so a channel listed twice goes entirely) and the rest keep their order.
   * It does not panic on an empty list.
   */
  function Remove(r: Registry, ch: Slot): (r': Registry)
    ensures IsSubsequence(r'.listeners, r.listeners)
    ensures forall x :: x in r'.listeners <==> x in r.listeners && x != ch
    ensures Count(r'.listeners, ch) == 0
    ensures |r'.listeners| == |r.listeners| - Count(r.listeners, ch)
    ensures r'.chans == r.chans
  {
    Registry(Survivors(r.listeners, ch), r.chans)
  }

  /** With the corrected remover, removing a newly listened channel restores the list. */
  lemma RemoveUndoesListen(r: Registry, ch: Slot)
    requires ch !in r.listeners
    ensures Remove(Listen(r, ch), ch) == r
  {
    SurvivorsOfAbsent(r.listeners, ch);
    var ls := r.listeners + [ch];
    assert ls[..|ls| - 1] == r.listeners;
  }

  lemma {:induction false} SurvivorsOfAbsent(ls: seq<Slot>, ch: Slot)
    requires ch !in ls
    ensures Survivors(ls, ch) == ls
    decreases |ls|
  {
    if |ls| > 0 {
      var init := ls[..|ls| - 1];
      assert ch !in init;
      SurvivorsOfAbsent(init, ch);
      assert ls == init + [ls[|ls| - 1]];
    }
  }

  /**
   * As written, listening and then removing a channel leaves the old list behind
   * `|old|` nil slots, so a list of n entries grows to 2n (an empty list stays empty).
   * With listeners [1, 2], removing 2 gives [nil, 1] instead of [1].
   */
  lemma RemoveAsWrittenLeavesNils(r: Registry, ch: Slot)
    requires ch !in r.listeners
    ensures RemoveAsWritten(Listen(r, ch), ch).listeners == Nils(|r.listeners|) + r.listeners
  {
    SurvivorsOfAbsent(r.listeners, ch);
    var ls := r.listeners + [ch];
    assert ls[..|ls| - 1] == r.listeners;
  }

  /** The smallest input that shows it: two listeners, the second removed. */
  lemma RemoveAsWrittenCounterexample()
    ensures RemoveAsWritten(Registry([Some(1), Some(2)], map[]), Some(2)).listeners == [None, Some(1)]
    ensures Remove(Registry([Some(1), Some(2)], map[]), Some(2)).listeners == [Some(1)]
  {
    SurvivorsExample();
    assert Nils(1) == [None];
  }

  lemma SurvivorsExample()
    ensures Survivors([Some(1), Some(2)], Some(2)) == [Some(1)]
  {
    var two: seq<Slot> := [Some(1), Some(2)];
    assert two[..1] == [Some(1)];
    SurvivorsOfAbsent([Some(1)], Some(2));
  }

  /** One non-blocking send: a channel with spare room takes `buf`, a full one is skipped. */
  function Accept(c: Chan, buf: Payload): Chan
  {
    if |c.queue| < c.capacity then Chan(c.capacity, c.queue + [buf]) else c
  }

  /** Offer `buf` to one slot; nil slots and unknown channels never accept. */
  function Offer(chans: map<ChanId, Chan>, slot: Slot, buf: Payload): map<ChanId, Chan>
  {
    if slot.Some? && slot.value in chans then chans[slot.value := Accept(chans[slot.value], buf)] else chans
  }

  /** What a channel holds after `buf` has been offered `k` times. */
  function Offered(c: Chan, buf: Payload, k: nat): Chan
    requires |c.queue| <= c.capacity
  {
    Chan(c.capacity, c.queue + Repeat(buf, Min(k, c.capacity - |c.queue|)))
  }

  lemma AcceptOffered(c: Chan, buf: Payload, k: nat)
    requires |c.queue| <= c.capacity
    ensures Accept(Offered(c, buf, k), buf) == Offered(c, buf, k + 1)
  {
    var room := c.capacity - |c.queue|;
    if k < room {
      assert Repeat(buf, k + 1) == Repeat(buf, k) + [buf];
      assert c.queue + Repeat(buf, k) + [buf] == c.queue + Repeat(buf, k + 1);
    }
  }

  /**
   * The loop of forward over the slots, in order. A channel listed k times receives
   * `buf` k times, as far as its spare room allows; the sends never block.
   */
  function Deliver(chans: map<ChanId, Chan>, slots: seq<Slot>, buf: Payload): (chans': map<ChanId, Chan>)
    requires Bounded(chans)
    ensures chans'.Keys == chans.Keys && Bounded(chans')
    ensures forall id :: id in chans ==> chans'[id] == Offered(chans[id], buf, Count(slots, Some(id)))
    decreases |slots|
  {
    if |slots| == 0 then
      assert forall id :: id in chans ==> Offered(chans[id], buf, 0) == chans[id] by {
        forall id | id in chans
          ensures Offered(chans[id], buf, 0) == chans[id]
        {
          assert chans[id].queue + [] == chans[id].queue;
        }
      }
      chans
    else
      var init := slots[..|slots| - 1];
      var slot := slots[|slots| - 1];
      var prev := Deliver(chans, init, buf);
      var next := Offer(prev, slot, buf);
      SplitLast(slots);
      forall id | id in chans
        ensures next[id] == Offered(chans[id], buf, Count(slots, Some(id)))
      {
        DeliverStep(chans, prev, init, slot, buf, id);
      }
      next
  }

  lemma DeliverStep(chans: map<ChanId, Chan>, prev: map<ChanId, Chan>, init: seq<Slot>, slot: Slot, buf: Payload, id: ChanId)
    requires Bounded(chans) && id in chans && prev.Keys == chans.Keys
    requires prev[id] == Offered(chans[id], buf, Count(init, Some(id)))
    ensures Offer(prev, slot, buf)[id] == Offered(chans[id], buf, Count(init + [slot], Some(id)))
  {
    CountSnoc(init, slot, Some(id));
    if slot == Some(id) {
      AcceptOffered(chans[id], buf, Count(init, Some(id)));
    }
  }

  /**
   * Go's unexported `forward` (broadcast.go:39): offer `buf` to every listed channel.
   * The listener list is not changed.
   */
  function Forward(r: Registry, buf: Payload): (r': Registry)
    requires Bounded(r.chans)
    ensures r'.listeners == r.listeners && r'.chans.Keys == r.chans.Keys && Bounded(r'.chans)
    ensures forall id :: id in r.chans && Count(r.listeners, Some(id)) == 0 ==> r'.chans[id] == r.chans[id]
    ensures forall id :: id in r.chans && Count(r.listeners, Some(id)) == 1 ==>
      r'.chans[id] == Accept(r.chans[id], buf)
  {
    var chans := Deliver(r.chans, r.listeners, buf);
    forall id | id in r.chans
      ensures Count(r.listeners, Some(id)) == 0 ==> chans[id] == r.chans[id]
      ensures Count(r.listeners, Some(id)) == 1 ==> chans[id] == Accept(r.chans[id], buf)
    {
      AcceptOffered(r.chans[id], buf, 0);
      assert r.chans[id].queue + [] == r.chans[id].queue;
    }
    Registry(r.listeners, chans)
  }

  /** Nil slots never accept, so the slots left by the as-written remover do not change delivery. */
  lemma NilSlotsAreInert(chans: map<ChanId, Chan>, n: nat, ls: seq<Slot>, buf: Payload)
    requires Bounded(chans)
    ensures Deliver(chans, Nils(n) + ls, buf) == Deliver(chans, ls, buf)
  {
    var a := Deliver(chans, Nils(n) + ls, buf);
    var b := Deliver(chans, ls, buf);
    forall id | id in chans
      ensures a[id] == b[id]
    {
      CountNils(n, ls, Some(id));
    }
  }

  lemma {:induction false} CountNils(n: nat, ls: seq<Slot>, x: Slot)
    requires x.Some?
    ensures Count(Nils(n) + ls, x) == Count(ls, x)
    decreases n + |ls|
  {
    if |ls| > 0 {
      var init := ls[..|ls| - 1];
      CountNils(n, init, x);
      assert (Nils(n) + ls)[..|Nils(n) + ls| - 1] == Nils(n) + init;
    } else if n > 0 {
      CountNils(n - 1, [], x);
      assert Nils(n) + ls == Nils(n - 1) + [None];
      assert (Nils(n - 1) + [None])[..n - 1] == Nils(n - 1);
      assert Nils(n - 1) + [] == Nils(n - 1);
    } else {
      assert Nils(n) + ls == [];
    }
  }

  /**
   * Go's exported `Forward` (broadcast.go:33): `forward` applied to each payload read
   * from the input channel, in order.
   */
  function ForwardAll(r: Registry, payloads: seq<Payload>): (r': Registry)
    requires Bounded(r.chans)
    ensures r'.listeners == r.listeners && r'.chans.Keys == r.chans.Keys && Bounded(r'.chans)
    decreases |payloads|
  {
    if |payloads| == 0 then r
    else Forward(ForwardAll(r, payloads[..|payloads| - 1]), payloads[|payloads| - 1])
  }

  /** A channel that is not listed receives nothing. */
  lemma {:induction false} ForwardAllSkipsUnlisted(r: Registry, payloads: seq<Payload>, id: ChanId)
    requires Bounded(r.chans) && id in r.chans && Count(r.listeners, Some(id)) == 0
    ensures ForwardAll(r, payloads).chans[id] == r.chans[id]
    decreases |payloads|
  {
    if |payloads| > 0 {
      ForwardAllSkipsUnlisted(r, payloads[..|payloads| - 1], id);
    }
  }

  /**
   * A channel listed once whose reader never takes anything receives the payloads that
   * fit in its spare room, in forward order, and every later payload is dropped.
   */
  lemma {:induction false} ForwardAllFillsThenDrops(r: Registry, payloads: seq<Payload>, id: ChanId)
    requires Bounded(r.chans) && id in r.chans && Count(r.listeners, Some(id)) == 1
    ensures var c := r.chans[id];
      ForwardAll(r, payloads).chans[id]
        == Chan(c.capacity, c.queue + payloads[..Min(|payloads|, c.capacity - |c.queue|)])
    decreases |payloads|
  {
    var c := r.chans[id];
    if |payloads| == 0 {
      assert c.queue + payloads[..0] == c.queue;
    } else {
      var init := payloads[..|payloads| - 1];
      var p := payloads[|payloads| - 1];
      ForwardAllFillsThenDrops(r, init, id);
      var prev := ForwardAll(r, init);
      assert ForwardAll(r, payloads).chans[id] == Accept(prev.chans[id], p);
      SplitLast(payloads);
      FillStep(c, init, p);
    }
  }

  lemma FillStep(c: Chan, init: seq<Payload>, p: Payload)
    requires |c.queue| <= c.capacity
    ensures var room := c.capacity - |c.queue|;
      Accept(Chan(c.capacity, c.queue + init[..Min(|init|, room)]), p)
        == Chan(c.capacity, c.queue + (init + [p])[..Min(|init| + 1, room)])
  {
    var room := c.capacity - |c.queue|;
    var payloads := init + [p];
    if |init| < room {
      assert init[..|init|] == init && payloads[..|init| + 1] == payloads;
      assert c.queue + init + [p] == c.queue + payloads;
    } else {
      assert payloads[..room] == init[..room];
    }
  }

  /** The operations on the registry, and a reader taking one payload from a channel. */
  datatype Event =
    | Subscribe(ch: Slot)      // Listen
    | Unsubscribe(ch: Slot)    // calling the remover Listen returned for ch
    | Publish(payload: Payload)
    | Receive(from: ChanId)

  /** The registry together with, for one observed channel, everything published and what its reader took. */
  datatype Observed = Observed(reg: Registry, published: seq<Payload>, received: seq<Payload>)

  function Apply(o: Observed, id: ChanId, e: Event): (o': Observed)
    requires Bounded(o.reg.chans)
    ensures Bounded(o'.reg.chans) && o'.reg.chans.Keys == o.reg.chans.Keys
  {
    match e
    case Subscribe(ch) => o.(reg := Listen(o.reg, ch))
    case Unsubscribe(ch) => o.(reg := Remove(o.reg, ch))
    case Publish(p) => Observed(Forward(o.reg, p), o.published + [p], o.received)
    case Receive(x) =>
      if x in o.reg.chans && |o.reg.chans[x].queue| > 0 then
        var c := o.reg.chans[x];
        var reg := o.reg.(chans := o.reg.chans[x := Chan(c.capacity, c.queue[1..])]);
        Observed(reg, o.published, if x == id then o.received + [c.queue[0]] else o.received)
      else o
  }

  function Run(o: Observed, id: ChanId, events: seq<Event>): (o': Observed)
    requires Bounded(o.reg.chans)
    ensures Bounded(o'.reg.chans) && o'.reg.chans.Keys == o.reg.chans.Keys
    decreases |events|
  {
    if |events| == 0 then o
    else Apply(Run(o, id, events[..|events| - 1]), id, events[|events| - 1])
  }

  /**
   * The delivery invariant for the observed channel: it is listed at most once, and
   * what its reader took followed by what is waiting is an in-order subsequence of
   * everything published, so nothing is duplicated or reordered.
   */
  ghost predicate InOrder(o: Observed, id: ChanId)
  {
    && id in o.reg.chans
    && Count(o.reg.listeners, Some(id)) <= 1
    && IsSubsequence(o.received + o.reg.chans[id].queue, o.published)
  }

  /** Every event keeps the invariant, except listening the observed channel a second time. */
  lemma ApplyKeepsOrder(o: Observed, id: ChanId, e: Event)
    requires Bounded(o.reg.chans) && InOrder(o, id)
    requires e.Subscribe? && e.ch == Some(id) ==> Count(o.reg.listeners, Some(id)) == 0
    ensures InOrder(Apply(o, id, e), id)
  {
    match e
    case Subscribe(ch) =>
    case Unsubscribe(ch) =>
    case Publish(p) => PublishKeepsOrder(o, id, p);
    case Receive(x) => ReceiveKeepsOrder(o, id, x);
  }

  lemma PublishKeepsOrder(o: Observed, id: ChanId, p: Payload)
    requires Bounded(o.reg.chans) && InOrder(o, id)
    ensures InOrder(Apply(o, id, Publish(p)), id)
  {
    var q := o.reg.chans[id].queue;
    var q' := Forward(o.reg, p).chans[id].queue;
    SubsequenceExtend(o.received + q, o.published, p);
    if q' != q {
      assert q' == q + [p];
      AppendAssoc(o.received, q, [p]);
    }
  }

  lemma ReceiveKeepsOrder(o: Observed, id: ChanId, x: ChanId)
    requires Bounded(o.reg.chans) && InOrder(o, id)
    ensures InOrder(Apply(o, id, Receive(x)), id)
  {
    var q := o.reg.chans[id].queue;
    if x == id && |q| > 0 {
      var o' := Apply(o, id, Receive(x));
      assert o'.received + o'.reg.chans[id].queue == o.received + q;
    }
  }

  /** Every time the observed channel is listened along `events`, it is not listed at that point. */
  ghost predicate ListenedOnlyWhenUnlisted(o: Observed, id: ChanId, events: seq<Event>)
    requires Bounded(o.reg.chans)
  {
    forall i :: 0 <= i < |events| && events[i] == Subscribe(Some(id)) ==>
      Count(Run(o, id, events[..i]).reg.listeners, Some(id)) == 0
  }

  /** The invariant holds along any run that never lists the observed channel twice at once. */
  lemma {:induction false} DeliveryIsInOrder(o: Observed, id: ChanId, events: seq<Event>)
    requires Bounded(o.reg.chans) && InOrder(o, id)
    requires ListenedOnlyWhenUnlisted(o, id, events)
    ensures InOrder(Run(o, id, events), id)
    decreases |events|
  {
    if |events| > 0 {
      var init := events[..|events| - 1];
      ListenedPrefix(o, id, events);
      DeliveryIsInOrder(o, id, init);
      assert events[..|events| - 1] == init;
      ApplyKeepsOrder(Run(o, id, init), id, events[|events| - 1]);
    }
  }

  lemma ListenedPrefix(o: Observed, id: ChanId, events: seq<Event>)
    requires Bounded(o.reg.chans) && |events| > 0 && ListenedOnlyWhenUnlisted(o, id, events)
    ensures ListenedOnlyWhenUnlisted(o, id, events[..|events| - 1])
  {
    var init := events[..|events| - 1];
    forall i | 0 <= i < |init| && init[i] == Subscribe(Some(id))
      ensures Count(Run(o, id, init[..i]).reg.listeners, Some(id)) == 0
    {
      assert init[..i] == events[..i];
      assert events[i] == init[i];
    }
  }

  /**
   * Once the observed channel is no longer listed, and is not listened again, nothing
   * more reaches it: what its reader took followed by what is waiting never changes.
   */
  lemma {:induction false} NothingAfterUnsubscribe(o: Observed, id: ChanId, events: seq<Event>)
    requires Bounded(o.reg.chans) && id in o.reg.chans && Count(o.reg.listeners, Some(id)) == 0
    requires forall i :: 0 <= i < |events| ==> events[i] != Subscribe(Some(id))
    ensures var o' := Run(o, id, events);
      Count(o'.reg.listeners, Some(id)) == 0
      && o'.received + o'.reg.chans[id].queue == o.received + o.reg.chans[id].queue
    decreases |events|
  {
    if |events| > 0 {
      var init := events[..|events| - 1];
      NothingAfterUnsubscribe(o, id, init);
      UnlistedStep(Run(o, id, init), id, events[|events| - 1]);
    }
  }

  lemma UnlistedStep(o: Observed, id: ChanId, e: Event)
    requires Bounded(o.reg.chans) && id in o.reg.chans && Count(o.reg.listeners, Some(id)) == 0
    requires e != Subscribe(Some(id))
    ensures var o' := Apply(o, id, e);
      Count(o'.reg.listeners, Some(id)) == 0
      && o'.received + o'.reg.chans[id].queue == o.received + o.reg.chans[id].queue
  {
    var q := o.reg.chans[id].queue;
    var o' := Apply(o, id, e);
    if e.Receive? && e.from == id && |q| > 0 {
      assert o'.received + o'.reg.chans[id].queue == o.received + q;
    }
  }

  /** Removing a channel leaves it unlisted, whatever the list held. */
  lemma UnsubscribeUnlists(o: Observed, id: ChanId)
    requires Bounded(o.reg.chans)
    ensures Count(Apply(o, id, Unsubscribe(Some(id))).reg.listeners, Some(id)) == 0
  {
  }

  /**
   * The event model with the remover as written. Its `make` panics on an empty list,
   * and the panic ends the program: the result is then None.
   */
  function ApplyAsWritten(o: Observed, id: ChanId, e: Event): (o': Option<Observed>)
    requires Bounded(o.reg.chans)
    ensures o'.None? <==> e.Unsubscribe? && |o.reg.listeners| == 0
    ensures o'.Some? ==> Bounded(o'.value.reg.chans) && o'.value.reg.chans.Keys == o.reg.chans.Keys
  {
    match e
    case Unsubscribe(ch) =>
      if |o.reg.listeners| == 0 then None else Some(o.(reg := RemoveAsWritten(o.reg, ch)))
    case _ => Some(Apply(o, id, e))
  }

  function RunAsWritten(o: Observed, id: ChanId, events: seq<Event>): (o': Option<Observed>)
    requires Bounded(o.reg.chans)
    ensures o'.Some? ==> Bounded(o'.value.reg.chans) && o'.value.reg.chans.Keys == o.reg.chans.Keys
    decreases |events|
  {
    if |events| == 0 then Some(o)
    else
      match RunAsWritten(o, id, events[..|events| - 1])
      case None => None
      case Some(p) => ApplyAsWritten(p, id, events[|events| - 1])
  }

  /**
   * Two states that no reader or forward can tell apart: the same channels and
   * history, and every channel listed equally often (nil slots aside).
   */
  ghost predicate Alike(a: Observed, b: Observed)
  {
    && a.published == b.published && a.received == b.received && a.reg.chans == b.reg.chans
    && forall x: ChanId :: Count(a.reg.listeners, Some(x)) == Count(b.reg.listeners, Some(x))
  }

  /** The as-written remover lists every channel exactly as often as the corrected one. */
  lemma RemoveAsWrittenCounts(r: Registry, ch: Slot)
    requires |r.listeners| >= 1
    ensures forall x: ChanId ::
      Count(RemoveAsWritten(r, ch).listeners, Some(x)) == Count(Remove(r, ch).listeners, Some(x))
  {
    forall x: ChanId
      ensures Count(RemoveAsWritten(r, ch).listeners, Some(x)) == Count(Remove(r, ch).listeners, Some(x))
    {
      CountNils(|r.listeners| - 1, Survivors(r.listeners, ch), Some(x));
    }
  }

  /** Delivery depends only on how often each channel is listed. */
  lemma DeliverByCounts(chans: map<ChanId, Chan>, a: seq<Slot>, b: seq<Slot>, buf: Payload)
    requires Bounded(chans)
    requires forall x: ChanId :: Count(a, Some(x)) == Count(b, Some(x))
    ensures Deliver(chans, a, buf) == Deliver(chans, b, buf)
  {
    var da := Deliver(chans, a, buf);
    var db := Deliver(chans, b, buf);
    forall id | id in chans
      ensures da[id] == db[id]
    {
      assert Count(a, Some(id)) == Count(b, Some(id));
    }
  }

  lemma ApplyAgrees(a: Observed, b: Observed, id: ChanId, e: Event)
    requires Bounded(a.reg.chans) && Alike(a, b) && ApplyAsWritten(a, id, e).Some?
    ensures Alike(ApplyAsWritten(a, id, e).value, Apply(b, id, e))
  {
    match e
    case Subscribe(ch) =>
    case Unsubscribe(ch) =>
      RemoveAsWrittenCounts(a.reg, ch);
    case Publish(p) =>
      DeliverByCounts(a.reg.chans, a.reg.listeners, b.reg.listeners, p);
    case Receive(x) =>
  }

  /**
   * Bridge from the corrected program to the code as written: as long as the as-written
   * program has not panicked, its state is alike to the corrected one's.
   */
  lemma {:induction false} RunAgrees(o: Observed, id: ChanId, events: seq<Event>)
    requires Bounded(o.reg.chans)
    ensures RunAsWritten(o, id, events).Some? ==> Alike(RunAsWritten(o, id, events).value, Run(o, id, events))
    decreases |events|
  {
    if |events| > 0 && RunAsWritten(o, id, events).Some? {
      var init := events[..|events| - 1];
      RunAgrees(o, id, init);
      ApplyAgrees(RunAsWritten(o, id, init).value, Run(o, id, init), id, events[|events| - 1]);
    }
  }

  /** ListenedOnlyWhenUnlisted, stated over the run with the remover as written. */
  ghost predicate ListenedOnlyWhenUnlistedAsWritten(o: Observed, id: ChanId, events: seq<Event>)
    requires Bounded(o.reg.chans)
  {
    forall i :: 0 <= i < |events| && events[i] == Subscribe(Some(id)) && RunAsWritten(o, id, events[..i]).Some? ==>
      Count(RunAsWritten(o, id, events[..i]).value.reg.listeners, Some(id)) == 0
  }

  /** A run that has not panicked had not panicked at any earlier point either. */
  lemma {:induction false} PrefixSurvives(o: Observed, id: ChanId, events: seq<Event>, i: nat)
    requires Bounded(o.reg.chans) && i <= |events| && RunAsWritten(o, id, events).Some?
    ensures RunAsWritten(o, id, events[..i]).Some?
    decreases |events|
  {
    if i < |events| {
      var init := events[..|events| - 1];
      PrefixSurvives(o, id, init, i);
      assert init[..i] == events[..i];
    } else {
      assert events[..i] == events;
    }
  }

  /** With the remover as written, the reader of a channel still gets payloads in publish order. */
  lemma DeliveryIsInOrderAsWritten(o: Observed, id: ChanId, events: seq<Event>)
    requires Bounded(o.reg.chans) && InOrder(o, id)
    requires ListenedOnlyWhenUnlistedAsWritten(o, id, events)
    ensures RunAsWritten(o, id, events).Some? ==> InOrder(RunAsWritten(o, id, events).value, id)
  {
    if RunAsWritten(o, id, events).Some? {
      forall i | 0 <= i < |events| && events[i] == Subscribe(Some(id))
        ensures Count(Run(o, id, events[..i]).reg.listeners, Some(id)) == 0
      {
        PrefixSurvives(o, id, events, i);
        RunAgrees(o, id, events[..i]);
      }
      RunAgrees(o, id, events);
      DeliveryIsInOrder(o, id, events);
    }
  }

  /** With the remover as written, nothing more reaches a channel once it is unlisted. */
  lemma NothingAfterUnsubscribeAsWritten(o: Observed, id: ChanId, events: seq<Event>)
    requires Bounded(o.reg.chans) && id in o.reg.chans && Count(o.reg.listeners, Some(id)) == 0
    requires forall i :: 0 <= i < |events| ==> events[i] != Subscribe(Some(id))
    ensures var w := RunAsWritten(o, id, events);
      w.Some? ==>
        Count(w.value.reg.listeners, Some(id)) == 0
        && w.value.received + w.value.reg.chans[id].queue == o.received + o.reg.chans[id].queue
  {
    RunAgrees(o, id, events);
    NothingAfterUnsubscribe(o, id, events);
  }

  /** The remover as written also leaves the channel unlisted, when it does not panic. */
  lemma UnsubscribeUnlistsAsWritten(o: Observed, id: ChanId)
    requires Bounded(o.reg.chans) && |o.reg.listeners| >= 1
    ensures var w := ApplyAsWritten(o, id, Unsubscribe(Some(id)));
      w.Some? && Count(w.value.reg.listeners, Some(id)) == 0
  {
    RemoveAsWrittenCounts(o.reg, Some(id));
  }
}

=== FILE: common.dfy ===
/** The Some/None datatype used wherever the Go code has a nil-able value. */
module Wrappers {

  datatype Option<+T> = None | Some(value: T)

  /** The elements held by an option, as a sequence of length at most one. */
  function ToSeq<T>(o: Option<T>): (s: seq<T>)
    ensures |s| <= 1
    ensures o.Some? <==> |s| == 1
    ensures o.Some? ==> s[0] == o.value
  {
    match o
    case None => []
    case Some(v) => [v]
  }
}

/** Byte sequences and the few sequence operations the models share. */
module Seqs {

  /** Go's `byte`, an unsigned 8-bit integer. */
  newtype byte = x: int | 0 <= x < 256

  /** The concatenation of a sequence of sequences, in order. */
  function Flatten<T>(ss: seq<seq<T>>): seq<T>
  {
    if |ss| == 0 then [] else ss[0] + Flatten(ss[1..])
  }

  lemma {:induction false} FlattenAppend<T>(a: seq<seq<T>>, b: seq<seq<T>>)
    ensures Flatten(a + b) == Flatten(a) + Flatten(b)
  {
    if |a| == 0 {
      assert a + b == b;
    } else {
      assert (a + b)[1..] == a[1..] + b;
      FlattenAppend(a[1..], b);
    }
  }

  lemma FlattenCons<T>(x: seq<T>, a: seq<seq<T>>)
    ensures Flatten([x] + a) == x + Flatten(a)
  {
    assert ([x] + a)[1..] == a;
  }

  /** Flattening a sequence extended by one element appends that element. */
  lemma FlattenSnoc<T>(a: seq<seq<T>>, x: seq<T>)
    ensures Flatten(a + [x]) == Flatten(a) + x
  {
    FlattenAppend(a, [x]);
    assert Flatten([x]) == x + Flatten([x][1..]);
  }

  /** `a` is obtained from `b` by deleting zero or more elements, keeping the order of the rest. */
  predicate IsSubsequence<T(==)>(a: seq<T>, b: seq<T>)
    decreases |b|
  {
    if |a| == 0 then true
    else if |b| == 0 then false
    else
      (a[|a| - 1] == b[|b| - 1] && IsSubsequence(a[..|a| - 1], b[..|b| - 1]))
      || IsSubsequence(a, b[..|b| - 1])
  }

  /** A non-empty sequence is its prefix followed by its last element. */
  lemma SplitLast<T>(s: seq<T>)
    requires |s| > 0
    ensures s == s[..|s| - 1] + [s[|s| - 1]]
  {
  }

  lemma SplitAt<T>(s: seq<T>, k: nat)
    requires k <= |s|
    ensures s[..k] + s[k..] == s
  {
  }

  lemma AppendAssoc<T>(a: seq<T>, b: seq<T>, c: seq<T>)
    ensures a + (b + c) == (a + b) + c
  {
  }

  lemma SubsequenceExtend<T>(a: seq<T>, b: seq<T>, x: T)
    requires IsSubsequence(a, b)
    ensures IsSubsequence(a, b + [x])
    ensures IsSubsequence(a + [x], b + [x])
  {
    assert (b + [x])[..|b|] == b;
    assert (a + [x])[..|a|] == a;
  }

  /** The number of occurrences of `x` in `s`. */
  function Count<T(==)>(s: seq<T>, x: T): (n: nat)
    ensures n <= |s|
  {
    if |s| == 0 then 0
    else Count(s[..|s| - 1], x) + (if s[|s| - 1] == x then 1 else 0)
  }

  lemma CountSnoc<T>(s: seq<T>, x: T, y: T)
    ensures Count(s + [x], y) == Count(s, y) + (if x == y then 1 else 0)
  {
    assert (s + [x])[..|s|] == s;
  }

  /** `n` copies of `x`. */
  function Repeat<T>(x: T, n: nat): (r: seq<T>)
    ensures |r| == n
  {
    if n == 0 then [] else Repeat(x, n - 1) + [x]
  }

  lemma RepeatAt<T>(x: T, n: nat, j: nat)
    requires j < n
    ensures Repeat(x, n)[j] == x
  {
    if j < n - 1 {
      RepeatAt(x, n - 1, j);
    }
  }

  function Min(a: int, b: int): int
  {
    if a <= b then a else b
  }

  function Max(a: nat, b: nat): nat
  {
    if a <= b then b else a
  }
}

=== FILE: control.dfy ===
/**
 * The data-channel message handler of main.go. A message is a sign byte followed by a
 * keyword; it causes at most one call on the Drone interface, or is logged as unknown.
 */
module Control {
  import opened Wrappers
  import opened Seqs

  /** The calls of the Drone interface (main.go) that a control message can cause. */
  datatype Call =
    | Forward(speed: int)
    | Clockwise(speed: int)
    | Right(speed: int)
    | Up(speed: int)
    | Flip(flipType: int)
    | Hover
    | TakeOff
    | Land

  /** What one message does: one actuator call, or a log line with the message and its factor. */
  datatype Outcome = Actuate(call: Call) | UnknownCommand(message: seq<byte>, factor: int)

  const Minus: byte := 0x2D       // '-'
  const Plus: byte := 0x2B        // '+'
  const DigitZero: byte := 0x30   // '0'

  const KwForward: seq<byte> := [0x66, 0x6F, 0x72, 0x77, 0x61]              // "forwa"
  const KwClock: seq<byte> := [0x63, 0x6C, 0x6F, 0x63, 0x6B]                // "clock"
  const KwRight: seq<byte> := [0x72, 0x69, 0x67, 0x68, 0x74]                // "right"
  const KwUp: seq<byte> := [0x75, 0x70]                                     // "up"
  const KwHover: seq<byte> := [0x68, 0x6F, 0x76, 0x65, 0x72]                // "hover"
  const KwTakeOff: seq<byte> := [0x74, 0x61, 0x6B, 0x65, 0x6F, 0x66, 0x66]  // "takeoff"
  const KwLand: seq<byte> := [0x6C, 0x61, 0x6E, 0x64]                       // "land"
  const KwFlip: seq<byte> := [0x66, 0x6C, 0x69, 0x70]                       // "flip"

  const Keywords: set<seq<byte>> := {KwForward, KwClock, KwRight, KwUp, KwHover, KwTakeOff, KwLand, KwFlip}

  /** The keyword that selects each kind of call. */
  function Keyword(c: Call): seq<byte>
  {
    match c
    case Forward(_) => KwForward
    case Clockwise(_) => KwClock
    case Right(_) => KwRight
    case Up(_) => KwUp
    case Flip(_) => KwFlip
    case Hover => KwHover
    case TakeOff => KwTakeOff
    case Land => KwLand
  }

  /** The direction factor: -2 after a '-' sign byte, +2 after any other first byte. */
  function Factor(sign: byte): int
  {
    if sign == Minus then -2 else 2
  }

  /**
   * One message. The keyword is the whole rest of the message, matched exactly; a
   * message whose rest is no keyword causes no call and is reported with its factor.
   * The Go handler reads the first byte unconditionally, so a message has at least one.
   */
  function Decode(b: seq<byte>): (o: Outcome)
    requires |b| >= 1
    ensures o.UnknownCommand? <==> b[1..] !in Keywords
    ensures o.UnknownCommand? ==> o.message == b && o.factor == Factor(b[0])
    ensures o.Actuate? ==> Keyword(o.call) == b[1..]
  {
    var factor := Factor(b[0]);
    var command := b[1..];
    if command == KwForward then Actuate(Forward(20 * factor))
    else if command == KwClock then Actuate(Clockwise(25 * factor))
    else if command == KwRight then Actuate(Right(20 * factor))
    else if command == KwUp then Actuate(Up(20 * factor))
    else if command == KwHover then Actuate(Hover)
    else if command == KwTakeOff then Actuate(TakeOff)
    else if command == KwLand then Actuate(Land)
    else if command == KwFlip then Actuate(Flip((b[0] as int - DigitZero as int) % 256))
    else UnknownCommand(b, factor)
  }

  /** Movement speeds: 40 for forward, right and up, 50 for clockwise, negated after '-'. */
  lemma MovementSpeeds(b: seq<byte>)
    requires |b| >= 1 && Decode(b).Actuate?
    ensures var c := Decode(b).call;
      var sign := if b[0] == Minus then -1 else 1;
      && (c.Forward? ==> c.speed == 40 * sign)
      && (c.Right? ==> c.speed == 40 * sign)
      && (c.Up? ==> c.speed == 40 * sign)
      && (c.Clockwise? ==> c.speed == 50 * sign)
  {
  }

  /** Hover, take-off and land do not depend on the first byte. */
  lemma PlainActionsIgnoreSign(b: seq<byte>, sign: byte)
    requires |b| >= 1 && Decode(b).Actuate?
    requires Decode(b).call.Hover? || Decode(b).call.TakeOff? || Decode(b).call.Land?
    ensures Decode([sign] + b[1..]) == Decode(b)
  {
    assert ([sign] + b[1..])[1..] == b[1..];
  }

  /** The flip type is the first byte minus '0' in byte arithmetic, so a digit selects itself. */
  lemma FlipTypeFromFirstByte(b: seq<byte>)
    requires |b| >= 1 && b[1..] == KwFlip
    ensures Decode(b) == Actuate(Flip((b[0] as int + 256 - 48) % 256))
    ensures DigitZero <= b[0] <= 0x39 ==> Decode(b) == Actuate(Flip(b[0] as int - 48))
  {
  }

  /** The messages of the wire format that produce a given call, written with a '+' where the sign is free. */
  function Encode(c: Call): Option<seq<byte>>
  {
    match c
    case Forward(v) => Signed(v, 40, KwForward)
    case Clockwise(v) => Signed(v, 50, KwClock)
    case Right(v) => Signed(v, 40, KwRight)
    case Up(v) => Signed(v, 40, KwUp)
    case Flip(ft) => if 0 <= ft < 256 then Some([((ft + 48) % 256) as byte] + KwFlip) else None
    case Hover => Some([Plus] + KwHover)
    case TakeOff => Some([Plus] + KwTakeOff)
    case Land => Some([Plus] + KwLand)
  }

  function Signed(v: int, speed: int, keyword: seq<byte>): Option<seq<byte>>
  {
    if v == speed then Some([Plus] + keyword)
    else if v == -speed then Some([Minus] + keyword)
    else None
  }

  /** Every encodable call is decoded back from its message. */
  lemma EncodeDecode(c: Call)
    requires Encode(c).Some?
    ensures |Encode(c).value| >= 1 && Decode(Encode(c).value) == Actuate(c)
  {
    var m := Encode(c).value;
    assert m[1..] == Keyword(c);
    KeywordsDiffer();
    match c
    case Flip(ft) =>
      assert m[0] as int == (ft + 48) % 256;
      if ft < 208 {
        assert m[0] as int == ft + 48;
      } else {
        assert m[0] as int == ft - 208;
      }
    case _ =>
  }

  /** The eight keywords are pairwise different. */
  lemma KeywordsDiffer()
    ensures KwHover != KwForward && KwHover != KwClock && KwHover != KwRight
    ensures KwRight != KwForward && KwRight != KwClock && KwClock != KwForward
    ensures KwFlip != KwLand
  {
    assert KwHover[0] != KwForward[0] && KwHover[0] != KwClock[0] && KwHover[0] != KwRight[0];
    assert KwRight[0] != KwForward[0] && KwRight[0] != KwClock[0] && KwClock[0] != KwForward[0];
    assert KwFlip[0] != KwLand[0];
  }

  /**
   * Every call the handler makes is encodable and is encoded by a message with the same
   * keyword, so the calls a message can cause are exactly the encodable ones.
   */
  lemma DecodeEncode(b: seq<byte>)
    requires |b| >= 1 && Decode(b).Actuate?
    ensures Encode(Decode(b).call).Some?
    ensures Encode(Decode(b).call).value[1..] == b[1..]
  {
    var c := Decode(b).call;
    if c.Flip? {
      var ft := c.flipType;
      assert 0 <= ft < 256;
    }
    assert Encode(c).value[1..] == Keyword(c);
  }

  /** "+forwa" moves forward at 40, the speed times the factor two. */
  lemma ForwardExample()
    ensures Decode([Plus] + KwForward) == Actuate(Forward(40))
  {
    assert ([Plus] + KwForward)[1..] == KwForward;
  }

  /** "-right" moves right at -40. */
  lemma RightExample()
    ensures Decode([Minus] + KwRight) == Actuate(Right(-40))
  {
    assert ([Minus] + KwRight)[1..] == KwRight;
    KeywordsDiffer();
  }

  /** "3flip" flips with flip type 3. */
  lemma FlipExample()
    ensures Decode([0x33] + KwFlip) == Actuate(Flip(3))
  {
    assert ([0x33 as byte] + KwFlip)[1..] == KwFlip;
    KeywordsDiffer();
  }

  /** "+xyzzy" is an unknown command. */
  lemma UnknownExample()
    ensures Decode([Plus, 0x78, 0x79, 0x7A, 0x7A, 0x79]).UnknownCommand?
  {
    var x: seq<byte> := [Plus, 0x78, 0x79, 0x7A, 0x7A, 0x79];
    assert x[1..][0] == 0x78;
  }

  /** Every message is at least one byte long. */
  ghost predicate WellFormed(msgs: seq<seq<byte>>)
  {
    forall i :: 0 <= i < |msgs| ==> |msgs[i]| >= 1
  }

  /** The actuator call a decoded message causes, if any. */
  function CallsOf(o: Outcome): seq<Call>
  {
    if o.Actuate? then [o.call] else []
  }

  /** The actuator calls caused by a sequence of messages, in order. */
  function Actuations(msgs: seq<seq<byte>>): (calls: seq<Call>)
    requires WellFormed(msgs)
    ensures |calls| <= |msgs|
    decreases |msgs|
  {
    if |msgs| == 0 then []
    else Actuations(msgs[..|msgs| - 1]) + CallsOf(Decode(msgs[|msgs| - 1]))
  }

  lemma ActuationsSnoc(msgs: seq<seq<byte>>, m: seq<byte>)
    requires WellFormed(msgs) && |m| >= 1
    ensures WellFormed(msgs + [m])
    ensures Actuations(msgs + [m]) == Actuations(msgs) + CallsOf(Decode(m))
  {
    assert (msgs + [m])[..|msgs|] == msgs;
  }

  /** Decoding keeps no state: the calls for two batches of messages are those of each batch in turn. */
  lemma {:induction false} ActuationsAreStateless(a: seq<seq<byte>>, b: seq<seq<byte>>)
    requires WellFormed(a) && WellFormed(b)
    ensures WellFormed(a + b)
    ensures Actuations(a + b) == Actuations(a) + Actuations(b)
    decreases |b|
  {
    if |b| == 0 {
      assert a + b == a;
    } else {
      var init, m := b[..|b| - 1], b[|b| - 1];
      SplitLast(b);
      assert WellFormed(init);
      ActuationsAreStateless(a, init);
      ActuationsSnoc(a + init, m);
      ActuationsSnoc(init, m);
      AppendAssoc(a, init, [m]);
      AppendAssoc(Actuations(a), Actuations(init), CallsOf(Decode(m)));
    }
  }
}

=== FILE: flight_data.dfy ===
/**
 * The FlightDataEvent handler of tello.go: each driver record is cut down to the two
 * fields viewers see, and a sample is passed on only when it differs from the last one
 * passed on.
 */
module FlightDedup {
  import opened Wrappers
  import opened Seqs

  /** The telemetry sample sent to viewers (FlightData in main.go). */
  datatype FlightData = FlightData(height: int, batteryPercentage: int)

  /**
   * The driver's flight-data record. Only its height and battery level are read; the
   * remaining fields are kept abstract in `other`.
   */
  datatype DriverFlightData = DriverFlightData(height: int, batteryPercentage: int, other: seq<int>)

  /** The zero value that `previousFlightData` starts from. */
  const Zero := FlightData(0, 0)

  function Project(d: DriverFlightData): FlightData
  {
    FlightData(d.height, d.batteryPercentage)
  }

  /** Two records give the same sample exactly when their height and battery level agree. */
  lemma ProjectKeepsHeightAndBattery(d1: DriverFlightData, d2: DriverFlightData)
    ensures Project(d1) == Project(d2) <==>
      d1.height == d2.height && d1.batteryPercentage == d2.batteryPercentage
  {
  }

  /** The sample sent last, or the zero value before anything was sent. */
  function LastSent(sent: seq<FlightData>): FlightData
  {
    if |sent| == 0 then Zero else sent[|sent| - 1]
  }

  /**
   * One event: the sample sent, if any, and the new value of previousFlightData. A
   * sample is sent exactly when it differs from the previous one, and the previous one
   * changes only by being replaced with the sample sent.
   */
  function OnFlightData(previous: FlightData, d: DriverFlightData): (r: (Option<FlightData>, FlightData))
    ensures r.0.Some? <==> Project(d) != previous
    ensures r.0.Some? ==> r.0.value == Project(d) && r.1 == Project(d)
    ensures r.0.None? ==> r.1 == previous && previous == Project(d)
  {
    var flightData := Project(d);
    if previous != flightData then (Some(flightData), flightData) else (None, previous)
  }

  /** The samples sent so far and the handler's previousFlightData. */
  datatype Dedup = Dedup(sent: seq<FlightData>, previous: FlightData)

  /** The handler state after a sequence of driver records. */
  function Deduplicate(records: seq<DriverFlightData>): (s: Dedup)
    ensures s.previous == LastSent(s.sent)
    ensures |s.sent| <= |records|
    decreases |records|
  {
    if |records| == 0 then Dedup([], Zero)
    else
      var prev := Deduplicate(records[..|records| - 1]);
      var r := OnFlightData(prev.previous, records[|records| - 1]);
      Dedup(prev.sent + ToSeq(r.0), r.1)
  }

  /** The samples the driver records carry, in arrival order. */
  function Samples(records: seq<DriverFlightData>): (s: seq<FlightData>)
    ensures |s| == |records|
  {
    seq(|records|, i requires 0 <= i < |records| => Project(records[i]))
  }

  lemma SamplesPrefix(records: seq<DriverFlightData>)
    requires |records| > 0
    ensures Samples(records) == Samples(records[..|records| - 1]) + [Project(records[|records| - 1])]
  {
  }

  /** A new record is sent exactly when its sample differs from the last sample sent. */
  lemma SentIffChanged(records: seq<DriverFlightData>, d: DriverFlightData)
    ensures var before := Deduplicate(records).sent;
      var after := Deduplicate(records + [d]).sent;
      if Project(d) != LastSent(before) then after == before + [Project(d)] else after == before
  {
    assert (records + [d])[..|records|] == records;
  }

  /** No two consecutive sent samples are equal, and a leading zero sample is never sent. */
  lemma {:induction false} NoRepeats(records: seq<DriverFlightData>)
    ensures var sent := Deduplicate(records).sent;
      (forall i :: 0 < i < |sent| ==> sent[i - 1] != sent[i]) && (|sent| > 0 ==> sent[0] != Zero)
    decreases |records|
  {
    if |records| > 0 {
      var init := records[..|records| - 1];
      NoRepeats(init);
      var before := Deduplicate(init).sent;
      var sent := Deduplicate(records).sent;
      assert sent[..|before|] == before;
    }
  }

  /** The sent samples are an order-preserving subsequence of the received samples. */
  lemma {:induction false} SentIsSubsequence(records: seq<DriverFlightData>)
    ensures IsSubsequence(Deduplicate(records).sent, Samples(records))
    decreases |records|
  {
    if |records| > 0 {
      var init := records[..|records| - 1];
      var d := records[|records| - 1];
      SentIsSubsequence(init);
      SamplesPrefix(records);
      SplitLast(records);
      SentIffChanged(init, d);
      SubsequenceStep(Deduplicate(init).sent, Deduplicate(records).sent, Samples(init), Project(d));
    }
  }

  lemma SubsequenceStep(before: seq<FlightData>, after: seq<FlightData>, samples: seq<FlightData>, x: FlightData)
    requires IsSubsequence(before, samples)
    requires after == before + [x] || after == before
    ensures IsSubsequence(after, samples + [x])
  {
    SubsequenceExtend(before, samples, x);
  }

  /** A sequence with each run of equal adjacent elements collapsed to one element. */
  function Collapse<T(==)>(s: seq<T>): (c: seq<T>)
    ensures |s| > 0 ==> |c| > 0 && c[|c| - 1] == s[|s| - 1]
    decreases |s|
  {
    if |s| == 0 then []
    else
      var c := Collapse(s[..|s| - 1]);
      if |c| > 0 && c[|c| - 1] == s[|s| - 1] then c else c + [s[|s| - 1]]
  }

  /**
   * Reference description of the filter: the samples sent are the received samples,
   * preceded by the zero value, with adjacent repeats collapsed, minus that leading zero.
   */
  lemma {:induction false} DedupIsCollapse(records: seq<DriverFlightData>)
    ensures [Zero] + Deduplicate(records).sent == Collapse([Zero] + Samples(records))
    decreases |records|
  {
    if |records| == 0 {
      assert [Zero] + Samples(records) == [Zero];
      assert [Zero][..0] == [];
    } else {
      var init := records[..|records| - 1];
      var d := records[|records| - 1];
      DedupIsCollapse(init);
      SamplesPrefix(records);
      SplitLast(records);
      SentIffChanged(init, d);
      CollapseAgain(Samples(init), Project(d), Deduplicate(init).sent, Deduplicate(records).sent);
    }
  }

  /** The inductive step of DedupIsCollapse, on samples alone. */
  lemma CollapseAgain(samples: seq<FlightData>, x: FlightData, before: seq<FlightData>, after: seq<FlightData>)
    requires [Zero] + before == Collapse([Zero] + samples)
    requires if x != LastSent(before) then after == before + [x] else after == before
    ensures [Zero] + after == Collapse([Zero] + (samples + [x]))
  {
    var all := [Zero] + (samples + [x]);
    var c := [Zero] + before;
    assert all[..|all| - 1] == [Zero] + samples;
    CollapseStep(all, c);
    assert c[|c| - 1] == LastSent(before);
    if x != LastSent(before) {
      assert [Zero] + after == c + [x];
    }
  }

  /** Collapse extends the collapsed prefix by the last element unless it repeats. */
  lemma CollapseStep<T>(s: seq<T>, c: seq<T>)
    requires |s| > 0 && Collapse(s[..|s| - 1]) == c
    ensures Collapse(s) == if |c| > 0 && c[|c| - 1] == s[|s| - 1] then c else c + [s[|s| - 1]]
  {
  }

  /** Two equal samples in a row are sent once; a changed one after them is sent too. */
  lemma RepeatThenChange(d: DriverFlightData, e: DriverFlightData)
    requires Project(d) != Zero && Project(e) != Project(d)
    ensures Deduplicate([d, d]).sent == [Project(d)]
    ensures Deduplicate([d, d, e]).sent == [Project(d), Project(e)]
  {
    assert [d, d][..1] == [d];
    assert [d][..0] == [];
    assert [d, d, e][..2] == [d, d];
  }
}

=== FILE: h264.dfy ===
/**
 * The two facts about an ITU-T H.264 Annex B byte stream that the gateway relies on:
 * the four-byte start code `00 00 00 01` (Annex B.1, byte stream NAL unit syntax) and
 * the NAL unit type in the low five bits of the header byte that follows it
 * (section 7.3.1, Table 7-1).
 */
module H264 {
  import opened Seqs

  const StartCode: seq<byte> := [0x00, 0x00, 0x00, 0x01]

  /** Index of the NAL header byte in a unit that begins with a four-byte start code. */
  const HeaderIndex: nat := 4

  /** NAL unit types that open a new frame: 1 is a non-IDR coded slice, 7 a sequence parameter set. */
  const NonIdrSlice: byte := 1
  const SequenceParameterSet: byte := 7

  /** The bytes at positions k..k+3 of `data` are the start code `00 00 00 01`. */
  predicate StartCodeAt(data: seq<byte>, k: nat)
  {
    k + 4 <= |data| && data[k] == 0x00 && data[k + 1] == 0x00 && data[k + 2] == 0x00 && data[k + 3] == 0x01
  }

  lemma StartCodeAtIsSlice(data: seq<byte>, k: nat)
    ensures StartCodeAt(data, k) <==> k + 4 <= |data| && data[k..k + 4] == StartCode
  {
    if k + 4 <= |data| && data[k..k + 4] == StartCode {
      assert data[k + 3] == data[k..k + 4][3];
    }
  }

  /** `nal_unit_type`: the low five bits of a NAL header byte, `header & 0x1F`. */
  function NalUnitType(header: byte): byte
  {
    header % 32
  }

  /** Because a byte is 0..255, masking with 0x1F and taking the remainder modulo 32 agree. */
  lemma NalUnitTypeIsMask(header: byte)
    ensures ((header as bv8) & 0x1F) as byte == NalUnitType(header)
  {
  }

  /** The unit types before which the accumulated bytes are handed on as a frame. */
  predicate StartsFrame(nalType: byte)
  {
    nalType == NonIdrSlice || nalType == SequenceParameterSet
  }

  /** A byte sequence that begins with a start code followed by a frame-opening NAL header. */
  ghost predicate OpensFrame(f: seq<byte>)
  {
    StartCodeAt(f, 0) && |f| > HeaderIndex && StartsFrame(NalUnitType(f[HeaderIndex]))
  }
}

=== FILE: mock_video.dfy ===
/**
 * The mock drone's video path (mock.go): a bufio.Scanner with the ScanFrames split
 * function cuts the recorded stream into tokens, and the startVideo2 loop buffers the
 * tokens into frames.
 */
module MockVideo {
  import opened Wrappers
  import opened Seqs
  import opened H264
  import opened Scan
  import opened Reassembly

  /** The frames handed to the video track, and the bytes still buffered, for a whole stream. */
  function FramesOf(stream: seq<byte>): (r: Reassembler)
    ensures forall i :: 0 <= i < |r.frames| ==> |r.frames[i]| > 0
    ensures |stream| > 0 ==> |r.buf| > 0
  {
    var ts := Tokenize(stream);
    if |stream| == 0 then Reassemble(Mock, ts)
    else
      ReassembleHoldsBackTail(Mock, ts);
      Reassemble(Mock, ts)
  }

  /** Frames followed by the buffer give back the stream. */
  lemma StreamConserved(stream: seq<byte>)
    ensures Flatten(FramesOf(stream).frames) + FramesOf(stream).buf == stream
  {
    ReassembleConserves(Mock, Tokenize(stream));
    TokenizeRoundTrip(stream);
  }

  /** The frames do not depend on how the reader splits the stream into reads. */
  lemma FramesIgnoreChunking(chunks: seq<seq<byte>>)
    ensures Reassemble(Mock, ScanChunks([], chunks)) == FramesOf(Flatten(chunks))
  {
    ChunkingDoesNotMatter([], chunks);
    assert [] + Flatten(chunks) == Flatten(chunks);
  }

  /** Every frame after the first begins with a start code and a slice or SPS header. */
  lemma FramesOpenWithStartCode(stream: seq<byte>)
    ensures forall i :: 1 <= i < |FramesOf(stream).frames| ==> OpensFrame(FramesOf(stream).frames[i])
  {
    TokenizeShape(stream);
    FramesOpenWithHeader(Mock, Tokenize(stream));
  }

  /** On scanner tokens the drone handler's chunk rule gives the same frames as the mock loop. */
  lemma MockAgreesWithTello(stream: seq<byte>)
    ensures FramesOf(stream) == Reassemble(Tello, Tokenize(stream))
  {
    TokenizeShape(stream);
    VariantsAgree(Tokenize(stream));
  }

  /** A non-empty stream with no start code from index 3 on stays buffered as a whole: no frame is written. */
  lemma UnframedStreamIsHeldBack(stream: seq<byte>)
    requires |stream| > 0 && NoStartCodeFrom(stream, 3)
    ensures FramesOf(stream) == Reassembler([], stream)
  {
    assert stream[|stream|..] == [];
    assert Tokenize(stream) == [stream];
    assert [stream][..0] == [];
    assert Reassemble(Mock, []) == Reassembler([], []);
    var st := Push(Mock, [], stream);
    assert st.emitted.None? && st.buf == stream;
  }

  /** The stream of the two-unit example below. */
  const TwoUnits: seq<byte> := [0, 0, 0, 1, 0x67, 0xAA, 0xBB, 0, 0, 0, 1, 0x41, 0xCC, 0xDD]

  /** The scanner cuts the example stream just before its second start code. */
  lemma TwoUnitTokens()
    ensures Tokenize(TwoUnits) == [TwoUnits[..7], TwoUnits[7..]]
  {
    var s := TwoUnits;
    var t2 := s[7..];
    assert StartCodeAt(s, 7);
    assert !StartCodeAt(s, 3) && !StartCodeAt(s, 4) && !StartCodeAt(s, 5) && !StartCodeAt(s, 6);
    assert FirstStartCode(s, 7);
    FirstStartCodeUnique(s, 7, ScanFrames(s, true).advance);
    assert NoStartCodeFrom(t2, 3) by {
      forall j: nat | 3 <= j
        ensures !StartCodeAt(t2, j)
      {
        if j == 3 { assert t2[3] == 1; }
      }
    }
    assert t2[7..] == [];
    assert Tokenize(t2) == [t2];
  }

  /**
   * Two units `00 00 00 01 67 AA BB` and `00 00 00 01 41 CC DD`: the second opens a
   * non-IDR slice, so the first unit is handed on whole and the second stays buffered.
   */
  lemma TwoUnitExample()
    ensures FramesOf(TwoUnits) == Reassembler([TwoUnits[..7]], TwoUnits[7..])
  {
    var t1, t2 := TwoUnits[..7], TwoUnits[7..];
    assert |t2| == 7 && t2[4] == 0x41;
    assert NalUnitType(t2[4]) == NonIdrSlice;
    FrameThenSlice(t1, t2);
    TwoUnitTokens();
  }

  /** A piece, then a piece opening a non-IDR slice: the first is handed on, the second buffered. */
  lemma FrameThenSlice(t1: seq<byte>, t2: seq<byte>)
    requires |t1| > 0 && |t2| > 4 && NalUnitType(t2[4]) == NonIdrSlice
    ensures Reassemble(Mock, [t1, t2]) == Reassembler([t1], t2)
  {
    assert [t1, t2][..1] == [t1];
    assert [t1][..0] == [];
    var first := Push(Mock, [], t1);
    assert first.buf == t1;
    assert Reassemble(Mock, [t1]) == Reassembler([], t1);
    var second := Push(Mock, t1, t2);
    assert Flatten(ToSeq(second.emitted)) == second.emitted.value;
  }
}

=== FILE: reassembly.dfy ===
/**
 * The frame-buffering rule shared by the mock producer loop (startVideo2 in mock.go)
 * and the drone's VideoFrameEvent handler (tello.go): incoming pieces are appended to a
 * buffer, and when a piece opens a new frame the buffer is handed on as one frame and
 * restarted with that piece.
 */
module Reassembly {
  import opened Wrappers
  import opened Seqs
  import opened H264
  import opened TelloVideo

  /** Which producer's rule is applied. */
  datatype Variant =
    | Mock   // startVideo2: pieces are ScanFrames tokens
    | Tello  // VideoFrameEvent: pieces are driver chunks

  /** The piece opens a new frame, so the bytes buffered before it form a complete one. */
  predicate Triggers(v: Variant, b: seq<byte>)
  {
    match v
    case Mock => |b| > HeaderIndex && StartsFrame(NalUnitType(b[HeaderIndex]))
    case Tello => StartCodeAt(b, 0) && |b| > HeaderIndex && StartsFrame(NalUnitType(b[HeaderIndex]))
  }

  /** One step of a producer loop: the frame handed on, if any, and the new buffer. */
  datatype Step = Step(emitted: Option<seq<byte>>, buf: seq<byte>)

  /**
   * The loop body for one piece `b` with buffer `buf`. Nothing is lost or reordered:
   * the emitted frame followed by the new buffer is the old buffer followed by `b`.
   */
  function Push(v: Variant, buf: seq<byte>, b: seq<byte>): (s: Step)
    ensures Flatten(ToSeq(s.emitted)) + s.buf == buf + b
    ensures s.emitted.Some? <==> |buf| > 0 && Triggers(v, b)
    ensures s.emitted.Some? ==> |s.emitted.value| > 0 && s.buf == b
    ensures |b| < 5 ==> s.emitted.None?
  {
    IsNalUnitStartIff(b);
    SendPreviousBytesIff(b);
    var s := match v
      case Mock =>
        if |b| < 5 then Step(None, buf + b)
        else if (NalUnitType(b[4]) == 7 || NalUnitType(b[4]) == 1) && |buf| > 0 then Step(Some(buf), b)
        else Step(None, buf + b)
      case Tello =>
        if |buf| > 0 && IsNalUnitStart(b) && SendPreviousBytes(b) then Step(Some(buf), b)
        else Step(None, buf + b);
    assert Flatten(ToSeq(s.emitted)) == if s.emitted.Some? then s.emitted.value else [];
    s
  }

  /** The frames handed on so far and the bytes still buffered. */
  datatype Reassembler = Reassembler(frames: seq<seq<byte>>, buf: seq<byte>)

  /** The state after the loop has processed `pieces`, starting from an empty buffer. */
  function Reassemble(v: Variant, pieces: seq<seq<byte>>): (r: Reassembler)
    ensures |r.frames| <= |pieces|
    ensures forall i :: 0 <= i < |r.frames| ==> |r.frames[i]| > 0
    decreases |pieces|
  {
    if |pieces| == 0 then Reassembler([], [])
    else
      var prev := Reassemble(v, pieces[..|pieces| - 1]);
      var s := Push(v, prev.buf, pieces[|pieces| - 1]);
      Reassembler(prev.frames + ToSeq(s.emitted), s.buf)
  }

  /** Emitted frames followed by the buffer concatenate to all pieces, in arrival order. */
  lemma {:induction false} ReassembleConserves(v: Variant, pieces: seq<seq<byte>>)
    ensures Flatten(Reassemble(v, pieces).frames) + Reassemble(v, pieces).buf == Flatten(pieces)
    decreases |pieces|
  {
    if |pieces| > 0 {
      var init := pieces[..|pieces| - 1];
      var b := pieces[|pieces| - 1];
      var prev := Reassemble(v, init);
      var s := Push(v, prev.buf, b);
      ReassembleConserves(v, init);
      StepConserves(prev.frames, prev.buf, ToSeq(s.emitted), s.buf, b);
      assert init + [b] == pieces;
      FlattenSnoc(init, b);
    }
  }

  lemma StepConserves(frames: seq<seq<byte>>, buf: seq<byte>, out: seq<seq<byte>>, buf': seq<byte>, b: seq<byte>)
    requires Flatten(out) + buf' == buf + b
    ensures Flatten(frames + out) + buf' == (Flatten(frames) + buf) + b
  {
    FlattenAppend(frames, out);
    calc {
      Flatten(frames + out) + buf';
      (Flatten(frames) + Flatten(out)) + buf';
      Flatten(frames) + (Flatten(out) + buf');
      Flatten(frames) + (buf + b);
      (Flatten(frames) + buf) + b;
    }
  }

  /** Frames once handed on are never taken back: later pieces only add frames. */
  lemma {:induction false} ReassembleExtends(v: Variant, pieces: seq<seq<byte>>, more: seq<seq<byte>>)
    ensures var before := Reassemble(v, pieces).frames;
      var after := Reassemble(v, pieces + more).frames;
      |before| <= |after| && after[..|before|] == before
    decreases |more|
  {
    if |more| == 0 {
      assert pieces + more == pieces;
    } else {
      var init := more[..|more| - 1];
      ReassembleExtends(v, pieces, init);
      var all := pieces + more;
      assert all[..|all| - 1] == pieces + init;
      var mid := Reassemble(v, pieces + init).frames;
      var after := Reassemble(v, all).frames;
      assert after[..|mid|] == mid;
    }
  }

  /**
   * The buffer is never written out by the loop itself: after a non-empty last piece it
   * is non-empty, so the frames cover a strict prefix of the input.
   */
  lemma ReassembleHoldsBackTail(v: Variant, pieces: seq<seq<byte>>)
    requires |pieces| > 0 && |pieces[|pieces| - 1]| > 0
    ensures |Reassemble(v, pieces).buf| > 0
    ensures |Flatten(Reassemble(v, pieces).frames)| < |Flatten(pieces)|
  {
    ReassembleConserves(v, pieces);
  }

  /** Every piece after the first begins with the start code. */
  ghost predicate Aligned(pieces: seq<seq<byte>>)
  {
    forall i :: 1 <= i < |pieces| ==> StartCodeAt(pieces[i], 0)
  }

  /**
   * Every frame after the first begins with a start code and a frame-opening NAL header,
   * and once a frame has been handed on so does the buffer.
   */
  ghost predicate FramesOpen(r: Reassembler)
  {
    && (forall i :: 1 <= i < |r.frames| ==> OpensFrame(r.frames[i]))
    && (|r.frames| > 0 ==> OpensFrame(r.buf))
  }

  /** One loop step keeps FramesOpen when the piece can only trigger on a start code. */
  lemma OpenStep(v: Variant, r: Reassembler, b: seq<byte>)
    requires FramesOpen(r)
    requires v.Tello? || |r.buf| == 0 || StartCodeAt(b, 0)
    ensures var s := Push(v, r.buf, b);
      FramesOpen(Reassembler(r.frames + ToSeq(s.emitted), s.buf))
  {
    var s := Push(v, r.buf, b);
    var r' := Reassembler(r.frames + ToSeq(s.emitted), s.buf);
    if s.emitted.Some? {
      assert OpensFrame(b);
      forall i | 1 <= i < |r'.frames|
        ensures OpensFrame(r'.frames[i])
      {
        if i < |r.frames| {
          assert r'.frames[i] == r.frames[i];
        } else {
          assert r'.frames[i] == r.buf;
        }
      }
    } else if |r.frames| > 0 {
      assert r'.buf == r.buf + b;
      assert r'.buf[..5] == r.buf[..5];
    }
  }

  /** With aligned pieces, or with the drone handler's rule, FramesOpen holds after every piece. */
  lemma {:induction false} FramesOpenWithHeader(v: Variant, pieces: seq<seq<byte>>)
    requires v.Tello? || Aligned(pieces)
    ensures FramesOpen(Reassemble(v, pieces))
    decreases |pieces|
  {
    if |pieces| > 0 {
      var init := pieces[..|pieces| - 1];
      var b := pieces[|pieces| - 1];
      assert v.Tello? || Aligned(init);
      FramesOpenWithHeader(v, init);
      if |init| > 0 && v.Mock? {
        assert StartCodeAt(b, 0);
      }
      OpenStep(v, Reassemble(v, init), b);
    }
  }

  /**
   * On aligned pieces the two producers' rules agree: the mock's token rule and the
   * drone handler's chunk rule hand on the same frames and keep the same buffer.
   */
  lemma {:induction false} VariantsAgree(pieces: seq<seq<byte>>)
    requires Aligned(pieces)
    ensures Reassemble(Mock, pieces) == Reassemble(Tello, pieces)
    decreases |pieces|
  {
    if |pieces| > 0 {
      var init := pieces[..|pieces| - 1];
      assert Aligned(init);
      VariantsAgree(init);
      if |init| == 0 {
        assert Reassemble(Mock, init).buf == [];
      } else {
        assert StartCodeAt(pieces[|pieces| - 1], 0);
      }
    }
  }
}

=== FILE: scan.dfy ===
/**
 * The `ScanFrames` split function of mock.go and the `bufio.Scanner` that drives it.
 *
 * ScanFrames looks, from index 3 on, for a 0x01 byte preceded by at least three zero
 * bytes (zeros before index 3 are not counted) and cuts the buffer three bytes before
 * that 0x01, so that the next token begins with the start code `00 00 00 01`.
 */
module Scan {
  import opened Wrappers
  import opened Seqs
  import opened H264

  /**
   * What a split function returns to the scanner: how many bytes to consume and the
   * token, if any. The Go error result is always nil and is not modelled.
   */
  datatype SplitResult = SplitResult(advance: nat, token: Option<seq<byte>>)

  /** No start code begins at any index from `lo` on. */
  ghost predicate NoStartCodeFrom(data: seq<byte>, lo: nat)
  {
    forall j: nat :: lo <= j ==> !StartCodeAt(data, j)
  }

  /** `k` is the first index, from 3 on, at which a start code begins. */
  ghost predicate FirstStartCode(data: seq<byte>, k: nat)
  {
    3 <= k && StartCodeAt(data, k) && forall j: nat :: 3 <= j < k ==> !StartCodeAt(data, j)
  }

  lemma FirstStartCodeUnique(data: seq<byte>, k: nat, k': nat)
    requires FirstStartCode(data, k) && FirstStartCode(data, k')
    ensures k == k'
  {
  }

  /**
   * The value of the `zeros` counter of ScanFrames on reaching index `i`: the length
   * of the run of zero bytes that ends just before `i`, counting only indices from 3 on.
   */
  ghost function ZeroRun(data: seq<byte>, i: nat): nat
    requires i <= |data|
  {
    if i <= 3 then 0 else if data[i - 1] == 0x00 then ZeroRun(data, i - 1) + 1 else 0
  }

  lemma ZeroRunThree(data: seq<byte>, i: nat)
    requires i <= |data|
    ensures ZeroRun(data, i) >= 3 <==> 6 <= i && data[i - 1] == 0x00 && data[i - 2] == 0x00 && data[i - 3] == 0x00
  {
    if 6 <= i && data[i - 1] == 0x00 && data[i - 2] == 0x00 {
      assert ZeroRun(data, i) == ZeroRun(data, i - 1) + 1 == ZeroRun(data, i - 2) + 2;
    }
    if 4 <= i && data[i - 1] == 0x00 {
      assert ZeroRun(data, i) == ZeroRun(data, i - 1) + 1;
      if 5 <= i && data[i - 2] == 0x00 {
        assert ZeroRun(data, i - 1) == ZeroRun(data, i - 2) + 1;
      }
    }
  }

  /**
   * The `for i := 3; i < len(data); i++` loop of ScanFrames, entered at index `i`
   * with counter `zeros`. The result is the cut position, or None when the loop ends
   * without cutting. No start code that ends at or after `i` is missed, so the cut is
   * the first start code from index max(3, i-3) on.
   */
  function ScanLoop(data: seq<byte>, i: nat, zeros: nat): (cut: Option<nat>)
    requires 3 <= i
    requires i <= |data| ==> zeros == ZeroRun(data, i)
    ensures cut.Some? ==>
      && Max(3, i - 3) <= cut.value
      && StartCodeAt(data, cut.value)
      && forall j: nat :: Max(3, i - 3) <= j < cut.value ==> !StartCodeAt(data, j)
    ensures cut.None? ==> NoStartCodeFrom(data, Max(3, i - 3))
    decreases |data| - i
  {
    if i >= |data| then None
    else if data[i] == 0x00 then ScanLoop(data, i + 1, zeros + 1)
    else if data[i] == 0x01 && zeros >= 3 then
      ZeroRunThree(data, i);
      Some(i - 3)
    else
      ZeroRunThree(data, i);
      ScanLoop(data, i + 1, 0)
  }

  /**
   * ScanFrames (mock.go). Before end of input, a token is returned only when a start
   * code at index 3 or later has been seen, and it is everything before the first such
   * start code; otherwise the scanner is asked for more data. At end of input without a
   * start code the whole remainder, if not empty, is the last token.
   */
  function ScanFrames(data: seq<byte>, atEOF: bool): (r: SplitResult)
    ensures r.token.Some? ==> 0 < r.advance == |r.token.value| <= |data| && r.token.value == data[..r.advance]
    ensures r.token.None? ==> r.advance == 0
    ensures !NoStartCodeFrom(data, 3) ==> r.token.Some? && FirstStartCode(data, r.advance)
    ensures NoStartCodeFrom(data, 3) ==> (r.token.Some? <==> atEOF && |data| > 0)
    ensures NoStartCodeFrom(data, 3) && r.token.Some? ==> r.advance == |data|
  {
    match ScanLoop(data, 3, 0)
    case Some(k) => SplitResult(k, Some(data[..k]))
    case None =>
      if atEOF && |data| > 0 then SplitResult(|data|, Some(data)) else SplitResult(0, None)
  }

  /** A cut made before end of input is followed in `data` by exactly the start code. */
  lemma CutPrecedesStartCode(data: seq<byte>)
    requires ScanFrames(data, false).token.Some?
    ensures var k := ScanFrames(data, false).advance;
      3 <= k && k + 4 <= |data| && data[k..k + 4] == StartCode
  {
    var k := ScanFrames(data, false).advance;
    StartCodeAtIsSlice(data, k);
  }

  /**
   * Prefix stability: once a cut has been found before end of input, any longer buffer
   * with the same prefix, at end of input or not, gives the same cut.
   */
  lemma CutIsStable(data: seq<byte>, more: seq<byte>, atEOF: bool)
    requires ScanFrames(data, false).token.Some?
    ensures ScanFrames(data + more, atEOF) == ScanFrames(data, false)
  {
    var k := ScanFrames(data, false).advance;
    var ext := data + more;
    assert FirstStartCode(data, k);
    assert StartCodeAt(ext, k);
    forall j: nat | 3 <= j < k
      ensures !StartCodeAt(ext, j)
    {
      assert !StartCodeAt(data, j);
    }
    assert !NoStartCodeFrom(ext, 3);
    var r := ScanFrames(ext, atEOF);
    FirstStartCodeUnique(ext, k, r.advance);
    assert ext[..k] == data[..k];
  }

  /**
   * Conversely, a cut found in a longer buffer whose start code lies wholly inside a
   * prefix is already found in that prefix before end of input.
   */
  lemma CutNeedsOnlyPrefix(data: seq<byte>, more: seq<byte>, atEOF: bool)
    requires !NoStartCodeFrom(data + more, 3)
    requires ScanFrames(data + more, atEOF).advance + 4 <= |data|
    ensures ScanFrames(data, false) == ScanFrames(data + more, atEOF)
  {
    var ext := data + more;
    var k := ScanFrames(ext, atEOF).advance;
    assert StartCodeAt(data, k);
    forall j: nat | 3 <= j < k
      ensures !StartCodeAt(data, j)
    {
      assert !StartCodeAt(ext, j);
    }
    var r := ScanFrames(data, false);
    FirstStartCodeUnique(data, k, r.advance);
    assert ext[..k] == data[..k];
  }

  /**
   * When the zero run before a 0x01 is longer than three bytes, the cut is three bytes
   * before the 0x01, so the extra zeros stay at the end of the preceding token.
   */
  lemma ExtraZerosStayBehind(data: seq<byte>, k: nat, m: nat)
    requires 3 <= k && 3 < m && k + m < |data|
    requires forall j :: k <= j < k + m ==> data[j] == 0x00
    requires data[k + m] == 0x01
    requires forall j: nat :: 3 <= j < k ==> !StartCodeAt(data, j)
    ensures var r := ScanFrames(data, false);
      r.token.Some? && r.advance == k + m - 3 && r.token.value[k..] == Repeat(0x00, m - 3)
  {
    assert StartCodeAt(data, k + m - 3);
    forall j: nat | k <= j < k + m - 3
      ensures !StartCodeAt(data, j)
    {
      assert data[j + 3] == 0x00;
    }
    var r := ScanFrames(data, false);
    FirstStartCodeUnique(data, k + m - 3, r.advance);
    var tail := r.token.value[k..];
    assert |tail| == m - 3;
    forall j | 0 <= j < m - 3
      ensures tail[j] == Repeat(0x00 as byte, m - 3)[j]
    {
      RepeatAt(0x00 as byte, m - 3, j);
    }
  }

  /**
   * The tokens a scanner produces from a complete input: ScanFrames applied with atEOF
   * set until it yields no token.
   */
  function Tokenize(data: seq<byte>): (ts: seq<seq<byte>>)
    ensures |ts| == 0 <==> |data| == 0
    ensures forall i :: 0 <= i < |ts| ==> |ts[i]| > 0
    decreases |data|
  {
    var r := ScanFrames(data, true);
    if r.token.None? then [] else [r.token.value] + Tokenize(data[r.advance..])
  }

  /** Tokenize takes the scanner's first token and continues after it. */
  lemma TokenizeUnfold(data: seq<byte>)
    requires ScanFrames(data, true).token.Some?
    ensures var k := ScanFrames(data, true).advance;
      0 < k <= |data| && Tokenize(data) == [data[..k]] + Tokenize(data[k..])
  {
  }

  /** The tokens concatenate back to the input. */
  lemma {:induction false} TokenizeRoundTrip(data: seq<byte>)
    ensures Flatten(Tokenize(data)) == data
    decreases |data|
  {
    var r := ScanFrames(data, true);
    if r.token.Some? {
      var k := r.advance;
      TokenizeUnfold(data);
      TokenizeRoundTrip(data[k..]);
      FlattenCons(data[..k], Tokenize(data[k..]));
      SplitAt(data, k);
    }
  }

  /** A token is a prefix of its buffer with no start code from index 3 on. */
  lemma TokenHasNoInnerStartCode(data: seq<byte>, atEOF: bool)
    requires ScanFrames(data, atEOF).token.Some?
    ensures NoStartCodeFrom(ScanFrames(data, atEOF).token.value, 3)
  {
    var r := ScanFrames(data, atEOF);
    var t := r.token.value;
    forall j: nat | 3 <= j
      ensures !StartCodeAt(t, j)
    {
      if StartCodeAt(t, j) {
        assert StartCodeAt(data, j);
      }
    }
  }

  /** A buffer that begins with the start code yields a token that begins with it too. */
  lemma TokenKeepsLeadingStartCode(data: seq<byte>, atEOF: bool)
    requires StartCodeAt(data, 0)
    requires ScanFrames(data, atEOF).token.Some?
    ensures StartCodeAt(ScanFrames(data, atEOF).token.value, 0)
  {
    var r := ScanFrames(data, atEOF);
    if r.advance < |data| {
      assert FirstStartCode(data, r.advance);
      assert r.advance != 3;
    }
  }

  /** The contents of a token stream produced by Tokenize from a buffer opening with a start code. */
  lemma {:induction false} TokensOpenWithStartCode(data: seq<byte>)
    requires StartCodeAt(data, 0)
    ensures forall i :: 0 <= i < |Tokenize(data)| ==> StartCodeAt(Tokenize(data)[i], 0)
    decreases |data|
  {
    var r := ScanFrames(data, true);
    if r.token.Some? {
      TokenKeepsLeadingStartCode(data, true);
      var rest := data[r.advance..];
      if |rest| > 0 {
        assert FirstStartCode(data, r.advance);
        assert StartCodeAt(rest, 0);
        TokensOpenWithStartCode(rest);
      }
    }
  }

  /**
   * The shape of a tokenization: every token is non-empty and has no start code from
   * index 3 on, and every token but the first begins with the start code.
   */
  lemma {:induction false} TokenizeShape(data: seq<byte>)
    ensures forall i :: 0 <= i < |Tokenize(data)| ==>
      |Tokenize(data)[i]| > 0 && NoStartCodeFrom(Tokenize(data)[i], 3)
    ensures forall i :: 1 <= i < |Tokenize(data)| ==> StartCodeAt(Tokenize(data)[i], 0)
    decreases |data|
  {
    var r := ScanFrames(data, true);
    if r.token.Some? {
      TokenHasNoInnerStartCode(data, true);
      var rest := data[r.advance..];
      TokenizeShape(rest);
      var ts := Tokenize(data);
      assert ts[1..] == Tokenize(rest);
      if |rest| > 0 {
        assert FirstStartCode(data, r.advance);
        assert StartCodeAt(rest, 0);
        TokensOpenWithStartCode(rest);
      }
      forall i | 1 <= i < |ts|
        ensures StartCodeAt(ts[i], 0)
      {
        assert ts[i] == Tokenize(rest)[i - 1];
      }
    }
  }

  /**
   * What the scanner does with its buffer while more input may follow: ScanFrames with
   * atEOF unset, applied until it asks for more data. Returns the tokens and the bytes
   * left buffered.
   */
  function Drain(buf: seq<byte>): (res: (seq<seq<byte>>, seq<byte>))
    ensures Flatten(res.0) + res.1 == buf
    ensures NoStartCodeFrom(res.1, 3)
    decreases |buf|
  {
    var r := ScanFrames(buf, false);
    if r.token.None? then ([], buf)
    else
      var d := Drain(buf[r.advance..]);
      DrainStep(buf, r.advance, d.0, d.1);
      ([buf[..r.advance]] + d.0, d.1)
  }

  lemma DrainStep(buf: seq<byte>, k: nat, ts: seq<seq<byte>>, rest: seq<byte>)
    requires k <= |buf| && Flatten(ts) + rest == buf[k..]
    ensures Flatten([buf[..k]] + ts) + rest == buf
  {
    FlattenCons(buf[..k], ts);
    assert buf[..k] + buf[k..] == buf;
  }

  /**
   * The tokens produced when the input arrives as `chunks` after `pending` bytes are
   * already buffered: each read is appended to the buffer and drained; at end of input
   * the rest is split with atEOF set.
   */
  function ScanChunks(pending: seq<byte>, chunks: seq<seq<byte>>): (ts: seq<seq<byte>>)
    ensures Flatten(ts) == pending + Flatten(chunks)
    decreases |chunks|
  {
    if |chunks| == 0 then
      TokenizeRoundTrip(pending);
      assert pending + Flatten(chunks) == pending;
      Tokenize(pending)
    else
      var d := Drain(pending + chunks[0]);
      var rest := ScanChunks(d.1, chunks[1..]);
      FlattenAppend(d.0, rest);
      FlattenChunks(pending, chunks);
      AppendAssoc(Flatten(d.0), d.1, Flatten(chunks[1..]));
      d.0 + rest
  }

  /** Tokens drained early are exactly the leading tokens of the whole input. */
  lemma {:induction false} DrainThenTokenize(buf: seq<byte>, future: seq<byte>)
    ensures Drain(buf).0 + Tokenize(Drain(buf).1 + future) == Tokenize(buf + future)
    decreases |buf|
  {
    var r := ScanFrames(buf, false);
    if r.token.Some? {
      var k := r.advance;
      TokenizeAfterCut(buf, future);
      DrainThenTokenize(buf[k..], future);
    }
  }

  /** A cut found before end of input is also the first token of any extension of the buffer. */
  lemma TokenizeAfterCut(buf: seq<byte>, future: seq<byte>)
    requires ScanFrames(buf, false).token.Some?
    ensures var k := ScanFrames(buf, false).advance;
      Tokenize(buf + future) == [buf[..k]] + Tokenize(buf[k..] + future)
  {
    var k := ScanFrames(buf, false).advance;
    CutIsStable(buf, future, true);
    assert (buf + future)[k..] == buf[k..] + future;
  }

  /** How the reader splits the stream into reads does not change the tokens. */
  lemma {:induction false} ChunkingDoesNotMatter(pending: seq<byte>, chunks: seq<seq<byte>>)
    ensures ScanChunks(pending, chunks) == Tokenize(pending + Flatten(chunks))
    decreases |chunks|
  {
    if |chunks| == 0 {
      assert pending + Flatten(chunks) == pending;
    } else {
      var d := Drain(pending + chunks[0]);
      ScanChunksUnfold(pending, chunks);
      ChunkingDoesNotMatter(d.1, chunks[1..]);
      DrainThenTokenize(pending + chunks[0], Flatten(chunks[1..]));
      FlattenChunks(pending, chunks);
    }
  }

  lemma ScanChunksUnfold(pending: seq<byte>, chunks: seq<seq<byte>>)
    requires |chunks| > 0
    ensures var d := Drain(pending + chunks[0]);
      ScanChunks(pending, chunks) == d.0 + ScanChunks(d.1, chunks[1..])
  {
  }

  lemma FlattenChunks(pending: seq<byte>, chunks: seq<seq<byte>>)
    requires |chunks| > 0
    ensures pending + Flatten(chunks) == (pending + chunks[0]) + Flatten(chunks[1..])
  {
  }
}

=== FILE: tello_video.dfy ===
/**
 * The two chunk predicates of the VideoFrameEvent handler in tello.go. The handler
 * tests only the front of each chunk the driver delivers, so a NAL unit that starts
 * inside a chunk is never seen as a start.
 */
module TelloVideo {
  import opened Seqs
  import opened H264

  /** The chunk begins with the four-byte start code. */
  predicate IsNalUnitStart(b: seq<byte>)
  {
    |b| > 3 && b[0] == 0 && b[1] == 0 && b[2] == 0 && b[3] == 1
  }

  /**
   * The chunk has a NAL header whose unit type, its low five bits, is 7 or 1. The mask
   * `& 0b11111` is written as `% 32`, which agrees with it on 0..255 (NalUnitTypeIsMask).
   */
  predicate SendPreviousBytes(b: seq<byte>)
  {
    |b| > 4 && (b[4] % 32 == 7 || b[4] % 32 == 1)
  }

  /** IsNalUnitStart holds exactly when the first four bytes are the start code. */
  lemma IsNalUnitStartIff(b: seq<byte>)
    ensures IsNalUnitStart(b) <==> |b| >= 4 && b[..4] == StartCode
    ensures IsNalUnitStart(b) <==> StartCodeAt(b, 0)
  {
    StartCodeAtIsSlice(b, 0);
  }

  /**
   * SendPreviousBytes is the test of the handler, written with the bit mask, and holds
   * exactly when byte 4 exists and its unit type opens a frame.
   */
  lemma SendPreviousBytesIff(b: seq<byte>)
    ensures SendPreviousBytes(b) <==>
      |b| > 4 && (((b[4] as bv8) & 0x1F) as byte == 7 || ((b[4] as bv8) & 0x1F) as byte == 1)
    ensures SendPreviousBytes(b) <==> |b| > HeaderIndex && StartsFrame(NalUnitType(b[HeaderIndex]))
  {
    if |b| > 4 {
      NalUnitTypeIsMask(b[4]);
    }
  }
}
